=== FILE: README.md ===
# Real-time chat: connection state machines, merges and server decisions

This project models the core of a real-time chat application with a React
front end and a Spring back end. The two sides talk over STOMP on SockJS.

**Front end**
- **Conversation view (`ChatWindow`).** Its connection-attempt guard and
  liveness flag, and the stompjs client callbacks it installs. Also the
  subscriptions it makes on `/topic/chat/{id}` and `/user/queue/chat/{id}`,
  the append-if-id-absent merge of inbound messages, the effect cleanup and
  the send gate.
- **Conversation list (`ChatList`).** The registration gate, the
  subscription to `/topic/user/{id}/chats` with its merge, and the
  `createChat` input pipeline: split on commas, trim, check for `@`, then
  shape the `{type, name, userEmails}` body.

**Back end**
- **`ChatController`.** The user upsert with its change detection, chat
  creation with membership rows and notifications, and the STOMP
  `sendMessage` route.
- **`InMemoryMessageBroker.handleMessage`.** It persists a message, then
  fans it out to every member's queue and to the chat topic.
- **The two inbound-channel interceptors.** Each has a `preSend` (CONNECT
  authentication, session restore) and a first-match authorization table.
- **The JWT audience validator.**

Asynchronous completions are explicit events. Each view is an immutable
record: `ChatWindow.Step` and `ChatList.Step` apply one event, and
`ChatWindow.Run` and `ChatList.Run` apply a sequence of them. The stompjs
client objects a view has built are kept in creation order, so callbacks of
stale clients stay observable.

**Server side**
- Each repository is a table scanned in insertion order.
- Responses are `Ok`, a fixed 400 text, or a 400 made of a fixed prefix
  plus an exception message that is not modelled.
- Emitted frames form a list: topic sends, user-destination sends and
  Kafka records.
- The token decoder is a function parameter.

**Modules**
- `Common`: options, decimal rendering and prefixes.
- `Destinations`: the destination strings.
- `JsString`: JavaScript `trim` and `split`.
- `Dedup`: the shared merge.
- `ChatWindow`, with `ChatWindowProps` for its multi-event properties.
- `ChatList` and `ChatInput`.
- `Server`, `Controller` and `Broker`.
- `Bearer`: the connect header.
- `StompClient`: the subscription handle both views hold.
- `Stomp`, `StompGate` and `SessionGate`: frames and the two interceptors.
- `Rules`: the authorization tables.
- `Audience`: the audience validator.
- `Delivery`: what one session receives of the broker's frames, and how
  the view's merge treats it.

Where the sources disagree, these choices were made:
- The user table follows `Backend/src/main/java/com/abhi/chatapp/entity/User.java`:
  string ids and a unique e-mail column, with `findByEmail` on the
  repository.
- `createChat` follows the controller's `getUserEmails`, not the
  differently named field of one `ChatRequest` DTO.
- The front end connects to `http://localhost:8080/ws`, the endpoint of
  `Backend/src/main/java/com/abhi/chatapp/config/WebSocketConfig.java`. The
  modelled `ChatController` and session interceptor belong to the
  `Backend/chatapp` back end, whose endpoint is `/chat`. The lemmas that
  compose a view with a server operation (`Delivery.UnsavedBroadcastsCollide`
  and the other `Delivery` lemmas) assume the back end the front end reaches
  runs this controller.

## Model

| member | source | states |
|---|---|---|
| StompClient.Unsubscribe | Frontend/src/components/ChatWindow.tsx:56-61 | a present handle stays present, keeps its destination and is no longer live; an absent one stays absent |
| ChatWindow.Retire | Frontend/src/components/ChatWindow.tsx:54-67 | both subscriptions dead, client inactive and disconnected; its conversation, header and socket state unchanged |
| ChatWindow.ReleaseStored | Frontend/src/components/ChatWindow.tsx:54-67 | reference cleared, the stored client retired, every other client and every other field untouched |
| ChatWindow.SetupWebSocket | Frontend/src/components/ChatWindow.tsx:35-40 | no change while an attempt is in progress or unmounted; otherwise attempt flag set and exactly one continuation for the current conversation suspended, nothing else changes |
| ChatWindow.OnMount | Frontend/src/components/ChatWindow.tsx:205-207 | mounted again for the new conversation; a token request is started only when no attempt flag is set; clients and reference untouched; messages, draft, error and connection flag kept (the old conversation's messages stay listed) |
| ChatWindow.OnCleanup | Frontend/src/components/ChatWindow.tsx:209-228 | unmounted; with a stored client: it is retired, reference cleared, connected/error/attempt reset; without one only the liveness flag changes (the attempt flag survives); conversation, messages, draft, continuations and published frames kept in both cases |
| ChatWindow.OnToken | Frontend/src/components/ChatWindow.tsx:43-72 | a null or empty token sets the authentication error, clears the attempt flag and builds nothing; otherwise the stored client is retired, the reference cleared, and one new client for the captured conversation with header `Bearer <token>` appended, not stored; in both cases the entry is consumed and messages, draft, conversation, liveness and published frames are kept |
| ChatWindow.OnTokenFailed | Frontend/src/components/ChatWindow.tsx:178-184 | when mounted: disconnected, setup error, attempt cleared; when unmounted nothing but the continuation is consumed; clients, reference, messages, draft and published frames kept in both cases |
| ChatWindow.Disconnected | Frontend/src/components/ChatWindow.tsx:80-104 | no-op when unmounted; otherwise not connected, attempt cleared, error replaced only when one is given |
| ChatWindow.OnActivateFailed | Frontend/src/components/ChatWindow.tsx:168-177 | activation settled; when mounted: disconnected, attempt cleared, the activate error shown; every other client, the reference and the messages kept |
| ChatWindow.OnConnect | Frontend/src/components/ChatWindow.tsx:107-158 | when mounted: connected, error and attempt cleared, exactly the topic and user queue of the client's own conversation subscribed, that client stored; other clients untouched; unmounted only the library state moves; messages, draft, continuations and published frames kept |
| ChatWindow.OnClose | Frontend/src/components/ChatWindow.tsx:94-104 | the closed client is disconnected with both subscriptions dead and every other client untouched; when mounted: disconnected, attempt cleared, unclean close sets the reconnect text, clean close keeps the error; reference, continuations, messages, draft and published frames kept |
| ChatWindow.OnFrame | Frontend/src/components/ChatWindow.tsx:119-153 | old list is a prefix, grows by at most one, unchanged exactly when the id is already listed, distinct ids stay distinct; no-op when unmounted or unparsable |
| ChatWindow.OnSend | Frontend/src/components/ChatWindow.tsx:231-271 | nothing without user id, non-blank draft and active client; past the gate a connected client with a successful publish sends exactly the trimmed draft to `/app/chat/{id}` and clears the draft, keeping the error; a failed publish keeps the draft and sets the error; a disconnected client publishes nothing and starts a token request exactly when mounted with no attempt in progress; conversation, liveness, connection flag, clients and messages never change |
| ChatWindowProps.StepPreservesInv | Frontend/src/components/ChatWindow.tsx:155-158 | every event keeps the stored client holding exactly the two subscriptions of its own conversation |
| ChatWindowProps.RunPreservesInv | Frontend/src/components/ChatWindow.tsx:155-158 | the same over any run of events |
| ChatWindowProps.StoredOnlyByConnect | Frontend/src/components/ChatWindow.tsx:158 | a newly stored reference is always the handshake of that very client |
| ChatWindowProps.GuardBlocksSecondAttempt | Frontend/src/components/ChatWindow.tsx:36-40 | while the attempt flag is set no event suspends another token request |
| ChatWindowProps.UnmountedCallbacksInert | Frontend/src/components/ChatWindow.tsx:80-184 | once unmounted, every guarded callback leaves all observable state unchanged |
| ChatWindowProps.RedeliveryIdempotent | Frontend/src/components/ChatWindow.tsx:124-149 | the same frame on either subscription twice equals once |
| ChatWindowProps.RunKeepsIdsDistinct | Frontend/src/components/ChatWindow.tsx:124-149 | over any run, the list never holds two messages with one id (given distinct history responses) |
| ChatWindowProps.StepUnmounted | Frontend/src/components/ChatWindow.tsx:209-210 | on an unmounted view no event but the effect body or a history response touches the list, and it stays unmounted |
| ChatWindowProps.UnmountedFramesDropped | Frontend/src/components/ChatWindow.tsx:119-153 | after teardown, no run of events without a new mount changes the list |
| ChatWindowProps.TypedMessagePublishedOnce | Frontend/src/components/ChatWindow.tsx:231-260 | typing a text and pressing send twice on a connected client publishes its trim once and leaves the input empty |
| ChatWindowProps.SendWhileDisconnectedReconnects | Frontend/src/components/ChatWindow.tsx:247-270 | a send on a lost connection keeps the draft, sets the error and suspends a token request for the current conversation; that token retires the stale client and builds a fresh one. The source disables the send button while `isConnected` is false, so this path is open only to a click that lands after the socket closed and before React commits `isConnected = false` (see `ChatWindow.Step` under Left out) |
| ChatWindowProps.ReconnectResubscribes | Frontend/src/components/ChatWindow.tsx:94-158 | after an unclean close, the library's reconnect and a handshake, both subscriptions are live again on the same stored client and the error is cleared |
| ChatWindowProps.ColdStartDeliversOnce | Frontend/src/components/ChatWindow.tsx:119-153 | mount, token, handshake and the same message on both subscriptions: listed once, both destinations subscribed, header `Bearer tok` |
| ChatWindowProps.StaleActivationSubscribesPreviousChat | Frontend/src/components/ChatWindow.tsx:205-228 | switching conversations while the first token request is outstanding leaves the view showing conversation 2 but subscribed to conversation 1's topics |
| ChatList.Retire | Frontend/src/components/ChatList.tsx:42-49 | inactive and disconnected, its subscription (if any) dead on the same destination, user id and header kept |
| ChatList.ReleaseStored | Frontend/src/components/ChatList.tsx:42-52 | stored client retired, reference cleared, every other client untouched |
| ChatList.SetupWebSocket | Frontend/src/components/ChatList.tsx:31-32 | nothing without a user id and completed registration; otherwise one continuation for the current user id, with no attempt guard |
| ChatList.OnToken | Frontend/src/components/ChatList.tsx:35-62 | a missing token builds nothing and shows no error; otherwise the stored client is retired, the reference cleared, every other client untouched, and one client with header `Bearer <token>` for the captured user is added, not stored; exactly entry k of the continuations is consumed and input, drafts, requests, registrations and the registration flag are kept |
| ChatList.OnConnect | Frontend/src/components/ChatList.tsx:64-87 | when mounted exactly `/topic/user/{userId}/chats` is subscribed and the client stored; unmounted only the library state moves; continuations, input, drafts, requests and list kept |
| ChatList.OnFrame | Frontend/src/components/ChatList.tsx:69-83 | prefix kept, at most one more, unchanged exactly when the chat id is listed, ids stay distinct; bad frames and unmounted views change nothing |
| ChatList.OnRegister | Frontend/src/components/ChatList.tsx:116-139 | the profile is posted exactly when user id and profile are present and registration has not succeeded |
| ChatList.OnRegistered | Frontend/src/components/ChatList.tsx:140-153 | success marks the user created and clears the error; failure keeps the flag and shows the rejection's text (the server's body, else axios's message) or the default; exactly entry k of the registrations is consumed, and input, drafts, requests, list and clients are kept |
| ChatList.OnFetchChats | Frontend/src/components/ChatList.tsx:160-171 | the listing is requested exactly with a user id after registration |
| ChatList.OnChatsLoaded | Frontend/src/components/ChatList.tsx:172-176 | success replaces the list and clears the error; failure keeps the list and shows the server's text or the default; one load consumed, continuations, drafts, registrations, registration flag and input kept |
| ChatList.OnCreateChat | Frontend/src/components/ChatList.tsx:182-188 | before registration only the wait text; otherwise the call is suspended at the token with the input and the list as the closure saw them, and nothing else changes: no parse, no error, no request |
| ChatList.OnCreateToken | Frontend/src/components/ChatList.tsx:188-218 | after the token, a rejected input shows only the e-mail text and posts nothing; an accepted one posts exactly one request with the parsed body and the list captured at the click; nothing else changes |
| ChatList.OnCreated | Frontend/src/components/ChatList.tsx:219-231 | success sets the list to the closure's list plus the new chat and clears input and error; failure keeps list and input and shows the text or the default; exactly request k is consumed, and clients, drafts and registrations are kept |
| ChatList.RegistrationSticks | Frontend/src/components/ChatList.tsx:141 | no event clears the created flag or issues another user POST |
| ChatList.RegistrationNeverRepeats | Frontend/src/components/ChatList.tsx:115-157 | after success, no run of events posts the user again |
| ChatList.NoConnectionBeforeRegistration | Frontend/src/components/ChatList.tsx:31-32 | the connection effect before registration requests no token and builds no client |
| ChatList.UnmountedCallbacksInert | Frontend/src/components/ChatList.tsx:64-70 | unmounted, handshakes and frames leave list and reference alone |
| ChatList.NotificationIdempotent | Frontend/src/components/ChatList.tsx:73-79 | the same notification twice equals once |
| ChatList.CreateThenResponseLists | Frontend/src/components/ChatList.tsx:182-223 | a registered user's click with valid input posts one request once the token arrives, and its success response adds exactly the new chat and clears input and error |
| ChatList.InvalidInputReportedAfterToken | Frontend/src/components/ChatList.tsx:188-194 | the click leaves the error alone; the e-mail text appears when the token arrives, and nothing is posted |
| ChatList.EmailErrorShownLast | Frontend/src/components/ChatList.tsx:172-194 | a listing failure that lands while the token is awaited is overwritten by the e-mail text |
| ChatList.NotificationThenResponseListsOnce | Frontend/src/components/ChatList.tsx:182-220 | after the click and the token, the notification for the created chat followed by the POST response lists the chat once |
| ChatList.NotificationDuringCreateLost | Frontend/src/components/ChatList.tsx:182-220 | a notification for another chat that arrives between the click and the token is listed, then overwritten by the response, which uses the list captured at the click |
| ChatInput.TrimAll | Frontend/src/components/ChatList.tsx:189 | one entry per field, each the trimmed field |
| ChatInput.Emails | Frontend/src/components/ChatList.tsx:189 | never empty, one more entry than commas, each the trimmed split field, none contains a comma |
| ChatInput.ChatType | Frontend/src/components/ChatList.tsx:202 | `group` exactly for more than one address, `private` otherwise |
| ChatInput.ChatName | Frontend/src/components/ChatList.tsx:197-199 | `Group Chat` for several addresses, `Chat with <address>` for one |
| ChatInput.ParseChatInput | Frontend/src/components/ChatList.tsx:189-205 | accepted exactly when every entry has `@`; then the parsed list unchanged, the type by count, the name `Group Chat` for several entries and `Chat with <entry>` for one |
| ChatInput.EmptyInputRejected | Frontend/src/components/ChatList.tsx:189-194 | the empty input is rejected |
| ChatInput.SingleAddress | Frontend/src/components/ChatList.tsx:197-205 | a comma-free address gives a private chat named `Chat with <address>` |
| JsString.Trim | Frontend/src/components/ChatWindow.tsx:232 | result neither starts nor ends with space, is empty exactly for all-space input |
| JsString.TrimIsInfix | Frontend/src/components/ChatWindow.tsx:243 | the trim is a contiguous piece of the input with only space cut off either side |
| JsString.Split | Frontend/src/components/ChatList.tsx:189 | one more field than separators, no field holds the separator, joining the fields back gives the input |
| JsString.SplitJoin | Frontend/src/components/ChatList.tsx:189 | splitting the join of separator-free parts gives the parts back |
| Dedup.AppendNew | Frontend/src/components/ChatWindow.tsx:124-130 | old list a prefix, at most one more, ids afterwards are the old ones plus the new one, unchanged exactly when the id was present, distinct ids preserved |
| Dedup.AppendNewIdempotent | Frontend/src/components/ChatList.tsx:73-79 | merging the same item twice equals once |
| Dedup.AppendAllRedelivered | Frontend/src/components/ChatWindow.tsx:143-149 | any number of frames with one id have the effect of the first |
| Bearer.Header | Frontend/src/components/ChatWindow.tsx:71-73 | the header starts with `Bearer ` and is seven longer than the token |
| Bearer.Strip | Backend/src/main/java/com/abhi/chatapp/config/WebSocketConfig.java:85-87 | accepted exactly when the header starts with `Bearer `; then header = scheme + result |
| Bearer.StripHeader | Backend/src/main/java/com/abhi/chatapp/config/WebSocketConfig.java:84-89 | the server recovers the client's token verbatim |
| Bearer.HeaderOfStripped | Backend/src/main/java/com/abhi/chatapp/config/WebSocketConfig.java:86-87 | every accepted header is the client's header of the recovered token |
| Bearer.LowerCaseSchemeRejected | Backend/src/main/java/com/abhi/chatapp/config/WebSocketConfig.java:86 | a lower-case `bearer` header is rejected |
| Server.Find | Backend/chatapp/src/main/java/com/abhi/chatapp/controller/ChatController.java:196-199 | the first row with the key in table order: found exactly when some row has it, and no earlier row does |
| Server.FindUser | Backend/chatapp/src/main/java/com/abhi/chatapp/controller/ChatController.java:61 | found exactly when some row has the id, and the result is such a row |
| Server.FindByEmail | Backend/chatapp/src/main/java/com/abhi/chatapp/controller/ChatController.java:132 | found exactly when some row has the e-mail, and the result is such a row |
| Server.FindChat | Backend/chatapp/src/main/java/com/abhi/chatapp/controller/ChatController.java:196-197 | found exactly when some chat has the id, and the result is that chat |
| Server.SaveUser | Backend/chatapp/src/main/java/com/abhi/chatapp/controller/ChatController.java:79-81 | the row with the id is replaced in place or the user appended; other rows unmoved; ids stay unique |
| Server.FindUserUnique | Backend/src/main/java/com/abhi/chatapp/entity/User.java:10-12 | with unique ids the lookup finds exactly the row |
| Server.MemberIds | Backend/src/main/java/com/abhi/chatapp/service/InMemoryMessageBroker.java:32 | a user is listed exactly when a membership row of the chat names them |
| Controller.CreateOrUpdateUser | Backend/chatapp/src/main/java/com/abhi/chatapp/controller/ChatController.java:48-93 | missing e-mail: `Email is required` and no save; no subject: the failure answer and no save; otherwise a save happens exactly when the caller is new or a field differs and no other user holds the e-mail; 200 with the caller as requested unless the unique column fails; keys stay unique; no other user's row changes |
| Controller.SaveKeepsStored | Backend/src/main/java/com/abhi/chatapp/entity/User.java:14-15 | saving a row whose e-mail no other user holds keeps both keys unique and changes no other lookup |
| Controller.UpsertIdempotent | Backend/chatapp/src/main/java/com/abhi/chatapp/controller/ChatController.java:79-85 | repeating a successful request saves nothing and answers the same |
| Controller.NewUserCreated | Backend/chatapp/src/main/java/com/abhi/chatapp/controller/ChatController.java:61-87 | a new subject's first request adds one row and answers 200 with id = subject |
| Controller.MissingNameClearsName | Backend/chatapp/src/main/java/com/abhi/chatapp/controller/ChatController.java:71-76 | a request without a name clears a stored name |
| Controller.Invitees | Backend/chatapp/src/main/java/com/abhi/chatapp/controller/ChatController.java:130-136 | resolved users only, each a user whose e-mail was listed, never more than the e-mails |
| Controller.MembersOf | Backend/chatapp/src/main/java/com/abhi/chatapp/controller/ChatController.java:137-140 | one membership row of the chat per user, in order |
| Controller.NoticeAt | Backend/chatapp/src/main/java/com/abhi/chatapp/controller/ChatController.java:144 | the k-th notification goes to the k-th invitee's list topic and carries the chat |
| Controller.CreateChat | Backend/chatapp/src/main/java/com/abhi/chatapp/controller/ChatController.java:96-159 | no subject or unregistered caller: 400, nothing written or sent; otherwise chat saved with next id, caller's row first then one per resolved e-mail, one notice per invitee then the caller's last, 200 with the chat |
| Controller.AddInvitees | Backend/chatapp/src/main/java/com/abhi/chatapp/controller/ChatController.java:130-147 | the loop yields the rows and notices of the resolved e-mails, in input order |
| Controller.UnknownEmailsSkipped | Backend/chatapp/src/main/java/com/abhi/chatapp/controller/ChatController.java:132-136 | e-mails nobody holds add no member and no notice |
| Controller.SelfInviteListedTwice | Backend/chatapp/src/main/java/com/abhi/chatapp/controller/ChatController.java:130-150 | listing one's own e-mail makes the caller a member twice and notifies them twice |
| Controller.SendMessage | Backend/chatapp/src/main/java/com/abhi/chatapp/controller/ChatController.java:189-213 | unknown chat, missing or unknown sender: one error text on the error topic, chat checked first; otherwise the unsaved message to Kafka `message_persist` unless that send throws, then the chat topic exactly when both sends return, else the failure text on the error topic |
| Controller.SendMessageStaysInChat | Backend/chatapp/src/main/java/com/abhi/chatapp/controller/ChatController.java:203-211 | every STOMP frame goes to the addressed chat's topic or error topic; the topic gets the message only after Kafka did, and never alongside an error |
| Broker.Deliveries | Backend/src/main/java/com/abhi/chatapp/service/InMemoryMessageBroker.java:36-46 | one delivery per member id |
| Broker.DeliveryAt | Backend/src/main/java/com/abhi/chatapp/service/InMemoryMessageBroker.java:39-43 | the k-th delivery goes to the k-th member on the chat's queue |
| Broker.HandleMessage | Backend/src/main/java/com/abhi/chatapp/service/InMemoryMessageBroker.java:25-56 | failed save: only the error text, tables unchanged; otherwise message stored under its new id, one queue send per member row in order, then exactly one topic broadcast, all carrying the saved message |
| StompGate.PreSend | Backend/src/main/java/com/abhi/chatapp/config/WebSocketConfig.java:75-127 | no accessor passes; CONNECT forwarded exactly with a `Bearer ` header whose token decodes, principal = that token with no authorities; SUBSCRIBE/SEND forwarded exactly with a JWT principal; everything else passes unchanged |
| StompGate.Authenticate | Backend/src/main/java/com/abhi/chatapp/config/WebSocketConfig.java:84-102 | forwarded exactly when the header strips and the token decodes; a drop installs no context |
| StompGate.Restore | Backend/src/main/java/com/abhi/chatapp/config/WebSocketConfig.java:103-116 | forwarded unchanged with the principal installed exactly when it is a JWT authentication |
| StompGate.ConnectWithClientHeader | Backend/src/main/java/com/abhi/chatapp/config/WebSocketConfig.java:84-94 | the client's header gets a CONNECT through and the principal's subject is the token's |
| StompGate.LowerCaseSchemeDropped | Backend/src/main/java/com/abhi/chatapp/config/WebSocketConfig.java:99-102 | a lower-case scheme is dropped whatever the token |
| StompGate.StompFrameUnchecked | Backend/src/main/java/com/abhi/chatapp/config/WebSocketConfig.java:84-126 | the STOMP frame, which STOMP 1.2 accepts in place of CONNECT, passes with no header check |
| StompGate.ConnectedSessionMaySend | Backend/src/main/java/com/abhi/chatapp/config/WebSocketConfig.java:103-116 | the principal a CONNECT installed lets SUBSCRIBE and SEND through |
| SessionGate.Remembered | Backend/chatapp/src/main/java/com/abhi/chatapp/config/WebSocketConfig.java:116-118 | present exactly when the session attributes hold a JWT authentication under `SPRING.AUTHENTICATION` |
| SessionGate.PreSend | Backend/chatapp/src/main/java/com/abhi/chatapp/config/WebSocketConfig.java:64-134 | CONNECT: dropped with `No valid Authorization header` or the decoder's message, else forwarded with `ROLE_USER` and stored in present attributes; other frames pass unchanged with the remembered authentication in the context |
| SessionGate.OnlyConnectDropped | Backend/chatapp/src/main/java/com/abhi/chatapp/config/WebSocketConfig.java:114-133 | only CONNECT can be dropped |
| SessionGate.ConnectThenRestore | Backend/chatapp/src/main/java/com/abhi/chatapp/config/WebSocketConfig.java:86-124 | after a CONNECT with attributes, later frames get the same authentication installed |
| SessionGate.NoAttributesNoRestore | Backend/chatapp/src/main/java/com/abhi/chatapp/config/WebSocketConfig.java:88-131 | without session attributes nothing is remembered |
| Rules.Decide | Backend/src/main/java/com/abhi/chatapp/config/WebSocketConfig.java:145-155 | a table ending in `anyMessage()` always decides |
| Rules.DecideFirstMatch | Backend/src/main/java/com/abhi/chatapp/config/WebSocketConfig.java:145-153 | no decision exactly when no rule matches; otherwise the requirement of a matching rule with no earlier match |
| Rules.MainTableMeaning | Backend/src/main/java/com/abhi/chatapp/config/WebSocketConfig.java:145-153 | authentication exactly for `/app/**` and for subscriptions under `/user`, `/queue`, `/topic/user`; all else permitted |
| Rules.SessionTableMeaning | Backend/chatapp/src/main/java/com/abhi/chatapp/config/WebSocketConfig.java:138-142 | authentication exactly for `/app/**` and subscriptions under `/topic`; all else permitted |
| Rules.UserQueueRulesRedundant | Backend/src/main/java/com/abhi/chatapp/config/WebSocketConfig.java:147-150 | dropping the two `/user/queue` entries decides every message the same |
| Rules.ChatTopicAccess | Backend/src/main/java/com/abhi/chatapp/config/WebSocketConfig.java:152 | anyone may subscribe to a conversation topic in the main table; the second table requires authentication |
| Rules.UserChatsTopicNotOwnerChecked | Backend/src/main/java/com/abhi/chatapp/config/WebSocketConfig.java:149 | any authenticated session may subscribe to any user's list topic |
| Rules.AppChatNeedsAuth | Backend/src/main/java/com/abhi/chatapp/config/WebSocketConfig.java:146 | sending to `/app/chat/{id}` needs authentication in both tables |
| Audience.AnyMatch | Backend/chatapp/src/main/java/com/abhi/chatapp/config/AudienceValidator.java:30-34 | true exactly when the expected audience is listed |
| Audience.Validate | Backend/chatapp/src/main/java/com/abhi/chatapp/config/AudienceValidator.java:17-44 | success exactly when listed; otherwise the single `invalid_token` error; an absent claim throws |
| Audience.EmptyAudienceRejected | Backend/chatapp/src/main/java/com/abhi/chatapp/config/AudienceValidator.java:41-43 | an empty audience list fails with the missing-audience error |
| Audience.OnlyTheSetMatters | Backend/chatapp/src/main/java/com/abhi/chatapp/config/AudienceValidator.java:30-34 | order and repetition of audiences do not change the verdict |
| Audience.MoreAudiencesStillAccepted | Backend/chatapp/src/main/java/com/abhi/chatapp/config/AudienceValidator.java:30-39 | extra audiences on either side keep an accepted token accepted |
| Audience.MatchIsExact | Backend/chatapp/src/main/java/com/abhi/chatapp/config/AudienceValidator.java:33 | an audience that merely contains the expected one does not match |
| Delivery.Received | Backend/src/main/java/com/abhi/chatapp/service/InMemoryMessageBroker.java:39-49 | a frame reaches a session exactly when it is a topic send it subscribed to, or a send to its user on a queue it subscribed to under `/user` |
| Delivery.Inbox | Backend/src/main/java/com/abhi/chatapp/service/InMemoryMessageBroker.java:36-49 | a session receives at most one message per frame |
| Delivery.InboxOfDeliveries | Backend/src/main/java/com/abhi/chatapp/service/InMemoryMessageBroker.java:36-46 | the queue sends reach a session once per membership row of its user, when it subscribed to the user queue |
| Delivery.BrokerDeliversTwice | Backend/src/main/java/com/abhi/chatapp/service/InMemoryMessageBroker.java:36-49 | a member subscribed to topic and user queue receives the saved message once per membership row plus once |
| Delivery.TopicOnlySessionReceivesOnce | Backend/src/main/java/com/abhi/chatapp/service/InMemoryMessageBroker.java:49 | a session on the topic alone receives it once, member or not |
| Delivery.ToView | Frontend/src/components/ChatWindow.tsx:123 | the view sees the saved message's id, chat and sender |
| Delivery.Merged | Frontend/src/components/ChatWindow.tsx:119-153 | merging frames in order keeps the old list as a prefix |
| Delivery.CopiesMergeOnce | Frontend/src/components/ChatWindow.tsx:124-130 | any positive number of copies of a saved message merge as one |
| Delivery.MemberListsSavedMessageOnce | Backend/src/main/java/com/abhi/chatapp/service/InMemoryMessageBroker.java:36-49 | a member receives the saved message at least twice and lists it exactly as one delivery would |
| Delivery.UnsavedBroadcastsCollide | Backend/chatapp/src/main/java/com/abhi/chatapp/controller/ChatController.java:195-206 | the `sendMessage` broadcasts carry no id, so the view's merge takes every later one for the first and drops it |
| Delivery.SavedMessagesBothListed | Frontend/src/components/ChatWindow.tsx:124-130 | two messages saved under different ids are both listed, in order |

## Left out

- Sockets, SockJS, STOMP framing, heartbeats and the reconnect timer are left out. The library's state is reduced to active, socket open, connected, activating and live subscriptions; the reconnect timer is the `Reopen` event.
- axios is left out. HTTP responses are events that carry the data or the error text.
- In `ChatWindow.setupWebSocket`, `ChatList.setupWebSocket` and `createChat`, the wait for `getToken` is its own event, so other events can interleave. In the registration and chat-listing effects the wait is folded into the request: the response event stands for both. `getToken` never rejects (the auth hook returns `null` on failure), so `createChat`'s catch is reached only through the POST.
- The history fetch in `ChatWindow` is left out. Only its response is modelled, as `HistoryLoaded`.
- The `Failed to subscribe` catch of `onConnect` and the exceptions of `unsubscribe`/`deactivate` are left out. The model's library calls never throw.
- Rendering, console logging and the `debug` callback are left out. Logging and `debug` change no state. Rendering would change state only through the `disabled` attributes, and the next two lines say how the model treats them.
- ChatWindow.Step: `Edit` and `Send` are enabled whatever `isConnected` is, though the source renders the input and the send button `disabled={!isConnected}` (ChatWindow.tsx:302, 309). The model has no render lag, so it lets these events through and applies `sendMessage`'s own checks. In the source a send reaches a disconnected client only in the window between the socket closing and React committing the state update.
- ChatList.Step: `CreateChat` is enabled whatever `isUserCreated` is, though the source renders the button `disabled={!isUserCreated}` (ChatList.tsx:248). So `OnCreateChat`'s wait-text branch for an unregistered user is one a click in the source does not reach once the render is committed; that branch still models the guard `createChat` itself carries.
- `getUserChats` and `getChatMessages` are left out. They are reads whose only logic is the repository query.
- `MessageConsumer.consume` is left out. It is the only Kafka listener, and it only saves the record. Nothing in the source calls `InMemoryMessageBroker.handleMessage`, so `Broker.HandleMessage` and the lemmas built on it (`Delivery.BrokerDeliversTwice`, `Delivery.MemberListsSavedMessageOnce`) describe a path that has no caller in this code base.
- The Spring wiring of the token decoder and the audience validator is not part of this model. The decoder is a function parameter.
- `AuthorizationChannelInterceptor` is left out beyond the table lookup. A table with no matching rule is treated as a denial.
- The `Frontend/chat-app` prototype and the Jest tests are left out.
- Concurrency between server threads is left out. Each handler runs to completion on its own.
- Controller.SendMessage: the wording of a thrown exception is not modelled. A throwing lookup or send yields the `Failed to send message: ` prefix followed by an unmodelled text.
- Controller.CreateChat: repository failures, and the `Failed to create chat: ` answer they lead to, are not modelled. Every save succeeds here.
- Controller.CreateOrUpdateUser: a violated unique e-mail column is the only save failure modelled. The exception text after the prefix is not modelled.
- Broker.HandleMessage: only a failing save reaches the catch block. A send that throws after some deliveries, leaving a partial fan-out, is not modelled.
- Rules.Decide: Spring's path matcher is approximated for the tables' `<base>` plus any-depth wildcard patterns. A destination matches when it equals the base or extends it past a `/`.
- Delivery.ToView: an absent message content becomes the empty string.
- The view's message id is a number. `Delivery.WireId` alone models the `null` id that a broadcast of an unsaved message carries.
- JsString.Trim: it removes the ECMAScript white-space and line-terminator code points. Its contract states the shape of the result, not the exact code-point list.

=== FILE: audience.dfy ===
/** The token validator of the second server configuration
    (`AudienceValidator`): a token is accepted when one of its audiences is
    exactly the configured one. */
module Audience {
  import opened Common

  /** `OAuth2Error(errorCode, description, uri)`. */
  datatype Error = Error(code: string, description: string, uri: Option<string>)

  /** What `validate` does: succeed, fail with errors, or throw (reading the
      audience of a token without an `aud` claim yields `null`, and
      streaming it throws). */
  datatype Validation = Success | Failure(errors: seq<Error>) | Raised

  const InvalidToken: string := "invalid_token"
  const AudienceMissingText: string := "The required audience is missing"

  /** The error the validator reports on a mismatch. */
  const Mismatch: Error := Error(InvalidToken, AudienceMissingText, None)

  /** `stream().anyMatch(a -> a.equals(expected))`, scanning from the front. */
  function AnyMatch(audiences: seq<string>, expected: string): (r: bool)
    ensures r <==> expected in audiences
  {
    if |audiences| == 0 then false
    else if audiences[0] == expected then true
    else AnyMatch(audiences[1..], expected)
  }

  /** `validate`. */
  function Validate(audience: Option<seq<string>>, expected: string): (r: Validation)
    ensures audience.None? <==> r == Raised
    ensures audience.Some? && expected in audience.value <==> r == Success
    ensures audience.Some? && expected !in audience.value <==> r == Failure([Mismatch])
  {
    match audience
    case None => Raised
    case Some(auds) => if AnyMatch(auds, expected) then Success else Failure([Mismatch])
  }

  /** A token with an empty audience list is rejected, whatever is
      expected. */
  lemma EmptyAudienceRejected(expected: string)
    ensures Validate(Some([]), expected) == Failure([Error("invalid_token", "The required audience is missing", None)])
  {
  }

  /** The verdict depends only on which audiences the token lists: their
      order and repetitions do not matter. */
  lemma OnlyTheSetMatters(a: seq<string>, b: seq<string>, expected: string)
    requires (set x | x in a) == (set x | x in b)
    ensures Validate(Some(a), expected) == Validate(Some(b), expected)
  {
    var sa, sb := set x | x in a, set x | x in b;
    if expected in a {
      assert expected in sa;
      assert expected in b;
    } else {
      assert expected !in sa;
      assert expected !in b;
    }
  }

  /** Listing more audiences never turns an accepted token into a rejected
      one. */
  lemma MoreAudiencesStillAccepted(a: seq<string>, extra: seq<string>, expected: string)
    requires Validate(Some(a), expected) == Success
    ensures Validate(Some(a + extra), expected) == Success
    ensures Validate(Some(extra + a), expected) == Success
  {
    var i :| 0 <= i < |a| && a[i] == expected;
    assert (a + extra)[i] == expected;
    assert (extra + a)[|extra| + i] == expected;
  }

  /** The match is exact: an audience that merely contains the expected
      one, or differs in case, does not count. */
  lemma MatchIsExact(expected: string)
    requires |expected| > 0
    ensures Validate(Some([expected + "/"]), expected).Failure?
    ensures Validate(Some(["x" + expected]), expected).Failure?
  {
    assert |expected + "/"| != |expected|;
    assert |"x" + expected| != |expected|;
  }
}

=== FILE: bearer.dfy ===
/** The `Authorization` connect header: built by the client as
    `Bearer ${token}` and stripped by the server's CONNECT interceptor (the
    bearer-token form of section 2.1 of RFC 6750). The server compares the
    scheme case-sensitively, although section 2.1 of RFC 7235 makes
    authentication schemes case-insensitive. */
module Bearer {
  import opened Common

  const Scheme: string := "Bearer "

  /** What the client puts in `connectHeaders.Authorization`. */
  function Header(token: string): (h: string)
    ensures StartsWith(h, Scheme) && |h| == 7 + |token|
  {
    Scheme + token
  }

  /** `token.startsWith("Bearer ") ? token.substring(7) : <reject>`: the
      header minus its first seven characters when it starts exactly with
      `Bearer ` (capital B, one space), nothing otherwise. */
  function Strip(header: Option<string>): (r: Option<string>)
    ensures r.Some? <==> header.Some? && StartsWith(header.value, Scheme)
    ensures r.Some? ==> header.value == Scheme + r.value
  {
    match header
    case Some(h) => if StartsWith(h, Scheme) then Some(h[7..]) else None
    case None => None
  }

  /** Round trip: the server recovers the client's token verbatim. */
  lemma StripHeader(token: string)
    ensures Strip(Some(Header(token))) == Some(token)
  {
    assert (Scheme + token)[7..] == token;
  }

  /** The other direction: every header the server accepts is exactly the
      header the client would build from the recovered token. */
  lemma HeaderOfStripped(header: string)
    requires Strip(Some(header)).Some?
    ensures Header(Strip(Some(header)).value) == header
  {
  }

  /** The scheme comparison is case-sensitive: a lower-case `bearer` is
      rejected. */
  lemma LowerCaseSchemeRejected(token: string)
    ensures Strip(Some("bearer " + token)) == None
  {
    assert ("bearer " + token)[0] != Scheme[0];
  }
}

=== FILE: broker.dfy ===
/** `InMemoryMessageBroker.handleMessage`: persist a message, then deliver
    it to every member's private queue and to the chat's topic. */
module Broker {
  import opened Common
  import opened Destinations
  import opened Server

  /** How `messageRepository.save` went: the id the database gave the row,
      or the failure's message. */
  datatype Saved = SavedAs(id: int) | SaveFailed(reason: string)

  /** The tables and the frames after handling one message. */
  datatype Handled = Handled(db: Db, sends: seq<Send>)

  const ProcessFailedPrefix: string := "Failed to process message: "

  /** One private-queue delivery of `m` per user id, in order. */
  function Deliveries(m: Message, uids: seq<string>): (r: seq<Send>)
    ensures |r| == |uids|
    decreases |uids|
  {
    if |uids| == 0 then []
    else Deliveries(m, uids[..|uids| - 1]) + [ToUser(uids[|uids| - 1], ChatQueue(m.chatId), MessageBody(m))]
  }

  /** The `k`-th delivery goes to the `k`-th user, on the chat's queue. */
  lemma {:induction false} DeliveryAt(m: Message, uids: seq<string>, k: nat)
    requires k < |uids|
    ensures Deliveries(m, uids)[k] == ToUser(uids[k], ChatQueue(m.chatId), MessageBody(m))
    decreases |uids|
  {
    if k < |uids| - 1 {
      DeliveryAt(m, uids[..|uids| - 1], k);
    }
  }

  /** `handleMessage`. A failed save emits only the error text on the
      chat's error topic and changes nothing. Otherwise the saved message
      (carrying its new id) is in the message table, and the frames are one
      private-queue delivery per membership row of the chat, in table order,
      followed by exactly one broadcast on the chat's topic, last; every
      frame carries the saved message, so nothing is delivered that was not
      persisted. */
  method HandleMessage(message: Message, db: Db, save: Saved) returns (r: Handled)
    ensures save.SaveFailed? ==>
              r == Handled(db, [ToTopic(ChatErrorTopic(message.chatId), Text(ProcessFailedPrefix + save.reason))])
    ensures save.SavedAs? ==>
              var saved := message.(id := Some(save.id));
              var uids := MemberIds(db.members, message.chatId);
              && r.db == db.(messages := db.messages[save.id := saved])
              && |r.sends| == |uids| + 1
              && (forall k :: 0 <= k < |uids| ==> r.sends[k] == ToUser(uids[k], ChatQueue(message.chatId), MessageBody(saved)))
              && r.sends[|uids|] == ToTopic(ChatTopic(message.chatId), MessageBody(saved))
              && (forall k :: 0 <= k < |r.sends| ==> r.sends[k].payload == MessageBody(saved))
              && r.sends == Deliveries(saved, uids) + [ToTopic(ChatTopic(message.chatId), MessageBody(saved))]
  {
    if save.SaveFailed? {
      return Handled(db, [ToTopic(ChatErrorTopic(message.chatId), Text(ProcessFailedPrefix + save.reason))]);
    }
    var saved := message.(id := Some(save.id));
    var db' := db.(messages := db.messages[save.id := saved]);
    var uids := MemberIds(db.members, message.chatId);
    var sends: seq<Send> := [];
    var i := 0;
    while i < |uids|
      invariant 0 <= i <= |uids|
      invariant sends == Deliveries(saved, uids[..i])
    {
      assert uids[..i + 1][..i] == uids[..i];
      sends := sends + [ToUser(uids[i], ChatQueue(message.chatId), MessageBody(saved))];
      i := i + 1;
    }
    assert uids[..i] == uids;
    sends := sends + [ToTopic(ChatTopic(message.chatId), MessageBody(saved))];
    forall k | 0 <= k < |uids|
      ensures sends[k] == ToUser(uids[k], ChatQueue(message.chatId), MessageBody(saved))
    {
      DeliveryAt(saved, uids, k);
    }
    r := Handled(db', sends);
  }
}

=== FILE: chat_input.dfy ===
/** The pure part of the conversation list's `createChat`: the comma-separated
    e-mail input is split, trimmed and checked, and the request body
    `{type, name, userEmails}` is shaped from it. */
module ChatInput {
  import JsString

  /** The body posted to `/api/chats`. */
  datatype ChatPayload = ChatPayload(chatType: string, name: string, userEmails: seq<string>)

  /** Either the input is rejected or it yields a request body. */
  datatype Parse = Invalid | Request(payload: ChatPayload)

  const InvalidEmailsText: string := "Please enter valid email addresses"
  const GroupType: string := "group"
  const PrivateType: string := "private"
  const GroupName: string := "Group Chat"

  /** `.map(email => email.trim())`. */
  function TrimAll(fields: seq<string>): (r: seq<string>)
    ensures |r| == |fields|
    ensures forall i :: 0 <= i < |r| ==> r[i] == JsString.Trim(fields[i])
  {
    if |fields| == 0 then [] else [JsString.Trim(fields[0])] + TrimAll(fields[1..])
  }

  /** `newChatEmails.split(',').map(email => email.trim())`: one entry per
      comma-separated field, in order, each trimmed, so never empty, and no
      entry contains a comma. */
  function Emails(input: string): (r: seq<string>)
    ensures |r| >= 1 && |r| == JsString.Count(input, ',') + 1
    ensures forall i :: 0 <= i < |r| ==> r[i] == JsString.Trim(JsString.Split(input, ',')[i])
    ensures forall i :: 0 <= i < |r| ==> ',' !in r[i]
  {
    var fields := JsString.Split(input, ',');
    var r := TrimAll(fields);
    forall i | 0 <= i < |r| ensures ',' !in r[i] {
      TrimKeepsOut(fields[i], ',');
    }
    r
  }

  /** A character absent from `s` is absent from its trim. */
  lemma TrimKeepsOut(s: string, c: char)
    requires c !in s
    ensures c !in JsString.Trim(s)
  {
    var t := JsString.TrimStart(s);
    var r := JsString.TrimEnd(t);
    assert JsString.Trim(s) == r;
    assert r == s[|s| - |t|..][..|r|];
  }

  /** `emails.some(email => !email.includes('@'))` is false. */
  predicate AllHaveAt(emails: seq<string>) {
    forall i :: 0 <= i < |emails| ==> '@' in emails[i]
  }

  /** `type`: `group` for more than one address, otherwise `private`. */
  function ChatType(emails: seq<string>): (t: string)
    ensures t == GroupType <==> |emails| > 1
    ensures t == PrivateType <==> |emails| <= 1
  {
    if |emails| > 1 then GroupType else PrivateType
  }

  /** `name`: `Group Chat` for a group, `Chat with <first address>`
      otherwise. */
  function ChatName(emails: seq<string>): (name: string)
    requires |emails| >= 1
    ensures |emails| > 1 ==> name == GroupName
    ensures |emails| == 1 ==> name == "Chat with " + emails[0]
  {
    if |emails| > 1 then GroupName else "Chat with " + emails[0]
  }

  /** The validation and shaping step of `createChat`. The input is accepted
      exactly when every parsed entry contains `@`; an accepted input yields
      the parsed list unchanged as `userEmails`, the type `group` exactly when
      there are several entries, and the matching name. */
  function ParseChatInput(input: string): (r: Parse)
    ensures r.Request? <==> AllHaveAt(Emails(input))
    ensures r.Request? ==> && r.payload.userEmails == Emails(input)
                           && (r.payload.chatType == GroupType <==> |Emails(input)| > 1)
                           && (r.payload.chatType == PrivateType <==> |Emails(input)| == 1)
                           && (|Emails(input)| > 1 ==> r.payload.name == GroupName)
                           && (|Emails(input)| == 1 ==> r.payload.name == "Chat with " + Emails(input)[0])
  {
    var emails := Emails(input);
    if exists i :: 0 <= i < |emails| && '@' !in emails[i] then Invalid
    else Request(ChatPayload(ChatType(emails), ChatName(emails), emails))
  }

  /** The empty input splits into one empty entry, which has no `@`: it is
      rejected like any other malformed input. */
  lemma EmptyInputRejected()
    ensures ParseChatInput("") == Invalid
  {
    assert JsString.Split("", ',') == [""] by {
      assert JsString.Join([""], ',') == "";
      JsString.SplitJoin([""], ',');
    }
    var e := Emails("");
    assert e[0] == JsString.Trim("");
    assert '@' !in e[0] by {
      assert JsString.AllSpace("");
    }
  }

  /** A comma-free input with an `@` is a private chat with that one
      (trimmed) address. */
  lemma SingleAddress(input: string)
    requires ',' !in input && '@' in JsString.Trim(input)
    ensures ParseChatInput(input) == Request(ChatPayload(PrivateType, "Chat with " + JsString.Trim(input), [JsString.Trim(input)]))
  {
    var e := Emails(input);
    assert e == [JsString.Trim(input)] by {
      assert JsString.Split(input, ',') == [input];
    }
    assert AllHaveAt(e);
  }
}

=== FILE: chat_list.dfy ===
/** The conversation list view (`ChatList`): user registration, the
    subscription to new-conversation notifications with its merge, and
    `createChat`.

    As in the conversation view, continuations are events, the built stompjs
    clients are kept in creation order and `stored` is `clientRef.current`.
    Unlike the conversation view there is no attempt flag, and the error,
    close and activate callbacks are not installed, so the library's
    connection losses are invisible here except through the subscription. */
module ChatList {
  import opened Common
  import opened Destinations
  import opened StompClient
  import Bearer
  import Dedup
  import ChatInput

  /** A conversation as the list shows it. */
  datatype Chat = Chat(id: int, chatType: string, name: Option<string>)

  function ChatId(c: Chat): int { c.id }

  /** The body of a notification frame after `JSON.parse`. */
  datatype Body = Parsed(chat: Chat) | Unparsable

  /** One stompjs client; `userId` is what the building closure captured. */
  datatype Client = Client(userId: string, authorization: string, active: bool, connected: bool,
                           subscription: Option<Subscription>)

  /** The identity provider's profile (`user` from the auth hook). */
  datatype Profile = Profile(email: Option<string>, name: Option<string>)

  /** A `createChat` call suspended at `await getToken()`, with the input
      and the `chats` list its closure saw when the button was pressed. */
  datatype Draft = Draft(input: string, snapshot: seq<Chat>)

  /** A posted `createChat` request, with the `chats` list its closure saw. */
  datatype Request = Request(payload: ChatInput.ChatPayload, snapshot: seq<Chat>)

  /** How a posted request came back. */
  datatype Outcome<T> = Succeeded(value: T) | Rejected(message: string)

  datatype ListView = ListView(
    userId: Option<string>,     // prop
    user: Option<Profile>,      // from the auth hook
    mounted: bool,              // isComponentMountedRef
    isUserCreated: bool,
    stored: Option<nat>,        // clientRef
    clients: seq<Client>,
    pending: seq<string>,       // setupWebSocket calls suspended at getToken, by captured userId
    registrations: seq<Profile>,// user POSTs in flight
    loads: nat,                 // chat-list GETs in flight
    chats: seq<Chat>,
    input: string,              // newChatEmails
    error: string,
    creating: seq<Draft>,       // createChat calls suspended at getToken
    requests: seq<Request>)     // chat POSTs in flight

  const WaitForSetupText: string := "Please wait for user setup to complete"
  const RegisterFailedText: string := "Failed to create/update user"
  const CreateFailedText: string := "Failed to create chat"
  const LoadFailedText: string := "Failed to load chats"

  /** The component right after its first render. */
  function Initial(userId: Option<string>, user: Option<Profile>): ListView {
    ListView(userId, user, true, false, None, [], [], [], 0, [], "", "", [], [])
  }

  predicate Valid(v: ListView) {
    v.stored.Some? ==> v.stored.value < |v.clients|
  }

  /** `!userId` is false: present and not the empty string. */
  predicate HasUserId(v: ListView) {
    v.userId.Some? && v.userId.value != ""
  }

  /** Unsubscribe the client's handle, then `deactivate()`. */
  function Retire(c: Client): (r: Client)
    ensures !r.active && !r.connected
    ensures r.subscription.Some? <==> c.subscription.Some?
    ensures r.subscription.Some? ==> && !r.subscription.value.live
                                     && r.subscription.value.destination == c.subscription.value.destination
    ensures r.userId == c.userId && r.authorization == c.authorization
  {
    c.(subscription := Unsubscribe(c.subscription), active := false, connected := false)
  }

  /** Retire the stored client and clear the reference; every other client
      is left as it was. */
  function ReleaseStored(v: ListView): (r: ListView)
    requires Valid(v)
    ensures r.stored.None? && |r.clients| == |v.clients|
    ensures v.stored.Some? ==> r.clients[v.stored.value] == Retire(v.clients[v.stored.value])
    ensures forall i :: 0 <= i < |v.clients| && v.stored != Some(i) ==> r.clients[i] == v.clients[i]
    ensures r == v.(stored := None, clients := r.clients)
  {
    match v.stored
    case None => v
    case Some(i) => v.(stored := None, clients := v.clients[i := Retire(v.clients[i])])
  }

  /** `setupWebSocket()` up to `await getToken()`: nothing without a user id
      and a completed registration; otherwise one continuation for the
      current user id is suspended. There is no attempt guard. */
  function SetupWebSocket(v: ListView): (r: ListView)
    ensures !HasUserId(v) || !v.isUserCreated ==> r == v
    ensures HasUserId(v) && v.isUserCreated ==> r.pending == v.pending + [v.userId.value]
    ensures r == v.(pending := r.pending)
  {
    if !HasUserId(v) || !v.isUserCreated then v
    else v.(pending := v.pending + [v.userId.value])
  }

  /** The continuation after `await getToken()`. A missing token stops here
      and builds nothing (no error is shown). Otherwise the stored client is
      unsubscribed and deactivated, the reference cleared, and one new client
      for the captured user id is built with header `Bearer <token>` and
      activated; it is not stored. Every other client is left alone. */
  function OnToken(v: ListView, k: nat, token: Option<string>): (r: ListView)
    requires Valid(v) && k < |v.pending|
    ensures |r.pending| == |v.pending| - 1
    ensures r.pending == v.pending[..k] + v.pending[k + 1..]
    ensures token.None? || token.value == "" ==> r == v.(pending := r.pending)
    ensures token.Some? && token.value != "" ==>
              && r.stored.None? && |r.clients| == |v.clients| + 1
              && r.clients[|v.clients|] == Client(v.pending[k], Bearer.Header(token.value), true, false, None)
              && (v.stored.Some? ==> r.clients[v.stored.value] == Retire(v.clients[v.stored.value]))
              && (forall i :: 0 <= i < |v.clients| && v.stored != Some(i) ==> r.clients[i] == v.clients[i])
    ensures r.chats == v.chats && r.error == v.error
    ensures r == v.(pending := r.pending, clients := r.clients, stored := r.stored)
  {
    var w := v.(pending := v.pending[..k] + v.pending[k + 1..]);
    if token.None? || token.value == "" then w
    else
      var u := ReleaseStored(w);
      u.(clients := u.clients + [Client(v.pending[k], Bearer.Header(token.value), true, false, None)])
  }

  /** `onConnect` of client `c`: a no-op for the view when unmounted;
      otherwise exactly `/topic/user/{userId}/chats` is subscribed and the
      client is stored. */
  function OnConnect(v: ListView, c: nat): (r: ListView)
    requires c < |v.clients|
    ensures |r.clients| == |v.clients| && r.clients[c].connected
    ensures v.mounted ==> && r.stored == Some(c)
                          && r.clients[c].subscription == Some(Subscription(UserChatsTopic(v.clients[c].userId), true))
    ensures !v.mounted ==> r == v.(clients := r.clients)
    ensures forall i :: 0 <= i < |v.clients| && i != c ==> r.clients[i] == v.clients[i]
    ensures r.chats == v.chats && r.error == v.error
    ensures r == v.(clients := r.clients, stored := r.stored)
  {
    var lib := v.clients[c].(connected := true);
    if !v.mounted then v.(clients := v.clients[c := lib])
    else
      var client := lib.(subscription := Some(Subscription(UserChatsTopic(lib.userId), true)));
      v.(clients := v.clients[c := client], stored := Some(c))
  }

  /** A notification frame: a no-op when unmounted or unparsable; otherwise
      the chat is appended unless its id is already listed. */
  function OnFrame(v: ListView, body: Body): (r: ListView)
    ensures v.chats <= r.chats && |r.chats| <= |v.chats| + 1
    ensures !v.mounted || body.Unparsable? ==> r == v
    ensures Dedup.DistinctIds(v.chats, ChatId) ==> Dedup.DistinctIds(r.chats, ChatId)
    ensures v.mounted && body.Parsed? ==>
              (r.chats == v.chats <==> Dedup.HasId(v.chats, ChatId, body.chat.id))
    ensures r == v.(chats := r.chats)
  {
    if !v.mounted then v
    else match body
      case Unparsable => v
      case Parsed(chat) => v.(chats := Dedup.AppendNew(v.chats, chat, ChatId))
  }

  /** The registration effect: it posts the profile only when a user id and
      a profile are present and registration has not yet succeeded. */
  function OnRegister(v: ListView): (r: ListView)
    ensures HasUserId(v) && v.user.Some? && !v.isUserCreated ==>
              r.registrations == v.registrations + [v.user.value]
    ensures !(HasUserId(v) && v.user.Some? && !v.isUserCreated) ==> r == v
    ensures r == v.(registrations := r.registrations)
  {
    if !HasUserId(v) || v.user.None? || v.isUserCreated then v
    else v.(registrations := v.registrations + [v.user.value])
  }

  /** The user POST came back: success marks the user created and clears the
      error; failure shows the rejection's text, or the default when it is
      empty. The text of `Rejected` stands for `err.response?.data ||
      err.message`, so a network failure shows axios's own message. */
  function OnRegistered(v: ListView, k: nat, outcome: Outcome<()>): (r: ListView)
    requires k < |v.registrations|
    ensures |r.registrations| == |v.registrations| - 1
    ensures r.registrations == v.registrations[..k] + v.registrations[k + 1..]
    ensures outcome.Succeeded? ==> r.isUserCreated && r.error == ""
    ensures outcome.Rejected? ==> r.isUserCreated == v.isUserCreated && r.error != ""
    ensures outcome.Rejected? ==> r.error == if outcome.message != "" then outcome.message else RegisterFailedText
    ensures r.chats == v.chats && r.clients == v.clients && r.stored == v.stored
    ensures r == v.(registrations := r.registrations, isUserCreated := r.isUserCreated, error := r.error)
  {
    var w := v.(registrations := v.registrations[..k] + v.registrations[k + 1..]);
    match outcome
    case Succeeded(_) => w.(isUserCreated := true, error := "")
    case Rejected(message) => w.(error := if message == "" then RegisterFailedText else message)
  }

  /** The listing effect: the user's chats are requested only with a user id
      and after registration. */
  function OnFetchChats(v: ListView): (r: ListView)
    ensures HasUserId(v) && v.isUserCreated ==> r.loads == v.loads + 1
    ensures !(HasUserId(v) && v.isUserCreated) ==> r == v
    ensures r == v.(loads := r.loads)
  {
    if !HasUserId(v) || !v.isUserCreated then v else v.(loads := v.loads + 1)
  }

  /** The listing came back: success replaces the whole list with the
      server's and clears the error; failure keeps the list and shows the
      server's text or the default. */
  function OnChatsLoaded(v: ListView, listing: Outcome<seq<Chat>>): (r: ListView)
    requires v.loads > 0
    ensures r.loads == v.loads - 1
    ensures listing.Succeeded? ==> r.chats == listing.value && r.error == ""
    ensures listing.Rejected? ==> r.chats == v.chats && r.error != ""
    ensures listing.Rejected? ==> r.error == if listing.message != "" then listing.message else LoadFailedText
    ensures r.input == v.input && r.requests == v.requests && r.clients == v.clients
    ensures r == v.(loads := r.loads, chats := r.chats, error := r.error)
  {
    var w := v.(loads := v.loads - 1);
    match listing
    case Succeeded(list) => w.(chats := list, error := "")
    case Rejected(message) => w.(error := if message == "" then LoadFailedText else message)
  }

  /** `createChat` up to `await getToken()`. Before registration it only
      shows the wait message; otherwise the call is suspended, keeping the
      input and the list as its closure saw them. Nothing is parsed yet. */
  function OnCreateChat(v: ListView): (r: ListView)
    ensures !HasUserId(v) || !v.isUserCreated ==> r == v.(error := WaitForSetupText)
    ensures HasUserId(v) && v.isUserCreated ==> r == v.(creating := v.creating + [Draft(v.input, v.chats)])
    ensures r.requests == v.requests && r.chats == v.chats && r.input == v.input
  {
    if !HasUserId(v) || !v.isUserCreated then v.(error := WaitForSetupText)
    else v.(creating := v.creating + [Draft(v.input, v.chats)])
  }

  /** The continuation of suspended `createChat` call `k` after the token
      arrived: its input is split, trimmed and checked. A rejected input
      shows the e-mail message and posts nothing; an accepted one posts
      exactly one request carrying the parsed body and the list the closure
      saw. Nothing else changes. */
  function OnCreateToken(v: ListView, k: nat): (r: ListView)
    requires k < |v.creating|
    ensures r.creating == v.creating[..k] + v.creating[k + 1..]
    ensures ChatInput.ParseChatInput(v.creating[k].input).Invalid? ==>
              r == v.(creating := r.creating, error := ChatInput.InvalidEmailsText)
    ensures ChatInput.ParseChatInput(v.creating[k].input).Request? ==>
              r == v.(creating := r.creating,
                      requests := v.requests + [Request(ChatInput.ParseChatInput(v.creating[k].input).payload, v.creating[k].snapshot)])
    ensures |r.requests| > |v.requests| ==>
              ChatInput.AllHaveAt(ChatInput.ParseChatInput(v.creating[k].input).payload.userEmails)
  {
    var d := v.creating[k];
    var w := v.(creating := v.creating[..k] + v.creating[k + 1..]);
    match ChatInput.ParseChatInput(d.input)
    case Invalid => w.(error := ChatInput.InvalidEmailsText)
    case Request(payload) => w.(requests := w.requests + [Request(payload, d.snapshot)])
  }

  /** The chat POST came back. On success the list becomes the list the
      request's closure saw plus the new chat, and the input and error are
      cleared; on failure the input is kept and the error shown. */
  function OnCreated(v: ListView, k: nat, outcome: Outcome<Chat>): (r: ListView)
    requires k < |v.requests|
    ensures |r.requests| == |v.requests| - 1
    ensures r.requests == v.requests[..k] + v.requests[k + 1..]
    ensures r == v.(requests := r.requests, chats := r.chats, input := r.input, error := r.error)
    ensures outcome.Succeeded? ==> && r.chats == v.requests[k].snapshot + [outcome.value]
                                   && r.input == "" && r.error == ""
    ensures outcome.Rejected? ==> r.chats == v.chats && r.input == v.input && r.error != ""
    ensures outcome.Rejected? ==> r.error == if outcome.message != "" then outcome.message else CreateFailedText
  {
    var w := v.(requests := v.requests[..k] + v.requests[k + 1..]);
    match outcome
    case Succeeded(chat) => w.(chats := v.requests[k].snapshot + [chat], input := "", error := "")
    case Rejected(message) => w.(error := if message == "" then CreateFailedText else message)
  }

  datatype Event =
    | Render(userId: Option<string>, user: Option<Profile>) // new props / auth state
    | Mount                                                 // connection effect body
    | Cleanup                                               // connection effect cleanup
    | TokenArrived(k: nat, token: Option<string>)
    | Connected(c: nat)
    | Closed(c: nat)
    | Inbound(c: nat, body: Body)
    | Register                                              // registration effect body
    | Registered(k: nat, registered: Outcome<()>)
    | FetchChats                                            // listing effect body
    | ChatsLoaded(listing: Outcome<seq<Chat>>)              // the listing response
    | Edit(input: string)
    | CreateChat                                            // the button's onClick
    | CreateTokenArrived(k: nat)                            // `await getToken()` in createChat resolved
    | Created(k: nat, outcome: Outcome<Chat>)

  predicate Enabled(v: ListView, e: Event) {
    match e
    case TokenArrived(k, _) => k < |v.pending|
    case Connected(c) => c < |v.clients| && v.clients[c].active && !v.clients[c].connected
    case Closed(c) => c < |v.clients| && v.clients[c].connected
    case Inbound(c, _) =>
      && c < |v.clients| && v.clients[c].connected
      && v.clients[c].subscription.Some? && v.clients[c].subscription.value.live
    case Registered(k, _) => k < |v.registrations|
    case CreateTokenArrived(k) => k < |v.creating|
    case Created(k, _) => k < |v.requests|
    case ChatsLoaded(_) => v.loads > 0
    case _ => true
  }

  function Step(v: ListView, e: Event): (r: ListView)
    requires Valid(v)
    ensures Valid(r)
  {
    if !Enabled(v, e) then v
    else match e
      case Render(userId, user) => v.(userId := userId, user := user)
      case Mount => SetupWebSocket(v.(mounted := true))
      case Cleanup => ReleaseStored(v.(mounted := false))
      case TokenArrived(k, token) => OnToken(v, k, token)
      case Connected(c) => OnConnect(v, c)
      case Closed(c) =>
        var cl := v.clients[c];
        v.(clients := v.clients[c := cl.(connected := false, subscription := Unsubscribe(cl.subscription))])
      case Inbound(c, body) => OnFrame(v, body)
      case Register => OnRegister(v)
      case Registered(k, registered) => OnRegistered(v, k, registered)
      case FetchChats => OnFetchChats(v)
      case ChatsLoaded(listing) => OnChatsLoaded(v, listing)
      case Edit(input) => v.(input := input)
      case CreateChat => OnCreateChat(v)
      case CreateTokenArrived(k) => OnCreateToken(v, k)
      case Created(k, outcome) => OnCreated(v, k, outcome)
  }

  function Run(v: ListView, es: seq<Event>): (r: ListView)
    requires Valid(v)
    ensures Valid(r)
    decreases |es|
  {
    if |es| == 0 then v else Run(Step(v, es[0]), es[1..])
  }

  /** Registration is never undone: once a user POST has succeeded, no event
      clears the flag. */
  lemma RegistrationSticks(v: ListView, e: Event)
    requires Valid(v) && v.isUserCreated
    ensures Step(v, e).isUserCreated
    ensures |Step(v, e).registrations| <= |v.registrations|
  {
    match e
    case Register =>
    case Registered(k, registered) =>
    case _ =>
  }

  /** Once registration has succeeded it never runs again: over any run, no
      further user POST is issued. */
  lemma {:induction false} RegistrationNeverRepeats(v: ListView, es: seq<Event>)
    requires Valid(v) && v.isUserCreated
    ensures Run(v, es).isUserCreated
    ensures |Run(v, es).registrations| <= |v.registrations|
    decreases |es|
  {
    if |es| > 0 {
      var w := Step(v, es[0]);
      RegistrationSticks(v, es[0]);
      RegistrationNeverRepeats(w, es[1..]);
    }
  }

  /** Without a user id or before registration, the connection effect
      creates nothing: no token request, so no client. */
  lemma NoConnectionBeforeRegistration(v: ListView)
    requires Valid(v) && (!HasUserId(v) || !v.isUserCreated)
    ensures Step(v, Mount).pending == v.pending && Step(v, Mount).clients == v.clients
  {
  }

  /** Once unmounted, handshakes and frames leave the list and the stored
      reference alone. */
  lemma UnmountedCallbacksInert(v: ListView, e: Event)
    requires Valid(v) && !v.mounted && (e.Connected? || e.Inbound?)
    ensures Step(v, e).chats == v.chats && Step(v, e).stored == v.stored
  {
  }

  /** Redelivery of the same notification is absorbed. */
  lemma NotificationIdempotent(v: ListView, c: nat, body: Body)
    requires Valid(v) && Enabled(v, Inbound(c, body))
    ensures Step(Step(v, Inbound(c, body)), Inbound(c, body)) == Step(v, Inbound(c, body))
  {
    if v.mounted && body.Parsed? {
      Dedup.AppendNewIdempotent(v.chats, body.chat, ChatId);
    }
  }

  /** The creation round trip: a registered user's click suspends at the
      token; its continuation posts one request for a valid input, and the
      success response adds exactly the new chat to the list as it was at
      the click, clearing the input and the error. */
  lemma CreateThenResponseLists(v: ListView, chat: Chat)
    requires Valid(v) && HasUserId(v) && v.isUserCreated && ChatInput.ParseChatInput(v.input).Request?
    ensures var w := Step(Step(v, CreateChat), CreateTokenArrived(|v.creating|));
            w.requests == v.requests + [Request(ChatInput.ParseChatInput(v.input).payload, v.chats)]
            && w.creating == v.creating
    ensures var w := Step(Step(Step(v, CreateChat), CreateTokenArrived(|v.creating|)), Created(|v.requests|, Succeeded(chat)));
            && w.chats == v.chats + [chat] && w.input == "" && w.error == "" && w.requests == v.requests
  {
    var u := Clicked(v);
    var w := Posted(u, |v.creating|);
    assert w.requests[..|v.requests|] + w.requests[|v.requests| + 1..] == v.requests;
    var x := Answered(w, |v.requests|, chat);
  }

  /** The e-mail check runs only once the token has arrived: the click
      itself leaves the error alone, and the continuation of an invalid
      input shows the e-mail message and posts nothing. */
  lemma InvalidInputReportedAfterToken(v: ListView)
    requires Valid(v) && HasUserId(v) && v.isUserCreated && ChatInput.ParseChatInput(v.input).Invalid?
    ensures Step(v, CreateChat).error == v.error
    ensures var w := Step(Step(v, CreateChat), CreateTokenArrived(|v.creating|));
            w.error == ChatInput.InvalidEmailsText && w.requests == v.requests && w.creating == v.creating
  {
    var u := Clicked(v);
    var w := Refused(u, |v.creating|);
  }

  /** Hence a listing failure that lands while the token is awaited is
      overwritten by the e-mail message. */
  lemma EmailErrorShownLast(v: ListView)
    requires Valid(v) && HasUserId(v) && v.isUserCreated && ChatInput.ParseChatInput(v.input).Invalid?
    requires v.loads > 0
    ensures Step(Step(v, CreateChat), ChatsLoaded(Rejected(""))).error == LoadFailedText
    ensures Step(Step(Step(v, CreateChat), ChatsLoaded(Rejected(""))), CreateTokenArrived(|v.creating|)).error
            == ChatInput.InvalidEmailsText
  {
    var u := Clicked(v);
    var w := Step(u, ChatsLoaded(Rejected("")));
    assert w.creating == u.creating;
    var x := Refused(w, |v.creating|);
  }

  /** The state right after a registered user's click. */
  lemma Clicked(v: ListView) returns (w: ListView)
    requires Valid(v) && HasUserId(v) && v.isUserCreated
    ensures w == Step(v, CreateChat) && Valid(w)
    ensures w == v.(creating := v.creating + [Draft(v.input, v.chats)])
  {
    w := v.(creating := v.creating + [Draft(v.input, v.chats)]);
    CreateChatStep(v);
  }

  /** A `CreateChat` event is the click handler. */
  lemma CreateChatStep(v: ListView)
    requires Valid(v)
    ensures Step(v, CreateChat) == OnCreateChat(v)
  {
  }

  /** A `CreateTokenArrived` event is the continuation. */
  lemma CreateTokenStep(v: ListView, k: nat)
    requires Valid(v) && k < |v.creating|
    ensures Step(v, CreateTokenArrived(k)) == OnCreateToken(v, k)
  {
  }

  /** The state after the continuation of a valid suspended call: one
      request posted with the list the closure saw. */
  lemma Posted(v: ListView, k: nat) returns (w: ListView)
    requires Valid(v) && k < |v.creating| && ChatInput.ParseChatInput(v.creating[k].input).Request?
    ensures w == Step(v, CreateTokenArrived(k)) && Valid(w)
    ensures w.requests == v.requests + [Request(ChatInput.ParseChatInput(v.creating[k].input).payload, v.creating[k].snapshot)]
    ensures |w.requests| == |v.requests| + 1 && w.requests[|v.requests|].snapshot == v.creating[k].snapshot
    ensures w == v.(creating := v.creating[..k] + v.creating[k + 1..], requests := w.requests)
  {
    CreateTokenStep(v, k);
    w := OnCreateToken(v, k);
  }

  /** The state after the continuation of an invalid suspended call. */
  lemma Refused(v: ListView, k: nat) returns (w: ListView)
    requires Valid(v) && k < |v.creating| && ChatInput.ParseChatInput(v.creating[k].input).Invalid?
    ensures w == Step(v, CreateTokenArrived(k)) && Valid(w)
    ensures w == v.(creating := v.creating[..k] + v.creating[k + 1..], error := ChatInput.InvalidEmailsText)
  {
    CreateTokenStep(v, k);
    w := OnCreateToken(v, k);
  }

  /** The creation response replaces the list with the list the request
      saw plus the new chat. The server's notification for the same chat,
      arriving first, therefore does not make it appear twice. */
  lemma NotificationThenResponseListsOnce(v: ListView, c: nat, chat: Chat)
    requires Valid(v) && v.mounted && HasUserId(v) && v.isUserCreated
    requires ChatInput.ParseChatInput(v.input).Request?
    requires !Dedup.HasId(v.chats, ChatId, chat.id)
    requires Enabled(v, Inbound(c, Parsed(chat)))
    ensures var w := Step(Step(Step(v, CreateChat), CreateTokenArrived(|v.creating|)), Inbound(c, Parsed(chat)));
            w.chats == v.chats + [chat]
            && Step(w, Created(|v.requests|, Succeeded(chat))).chats == v.chats + [chat]
  {
    var w := PostedThenNotified(v, c, chat);
    var x := Answered(w, |v.requests|, chat);
  }

  /** Click, token and a notification for a chat not yet listed: the chat
      is appended, and the request carries the list as it was at the click. */
  lemma PostedThenNotified(v: ListView, c: nat, chat: Chat) returns (w: ListView)
    requires Valid(v) && v.mounted && HasUserId(v) && v.isUserCreated
    requires ChatInput.ParseChatInput(v.input).Request?
    requires !Dedup.HasId(v.chats, ChatId, chat.id)
    requires Enabled(v, Inbound(c, Parsed(chat)))
    ensures w == Step(Step(Step(v, CreateChat), CreateTokenArrived(|v.creating|)), Inbound(c, Parsed(chat))) && Valid(w)
    ensures w.chats == v.chats + [chat]
    ensures |w.requests| == |v.requests| + 1 && w.requests[|v.requests|].snapshot == v.chats
  {
    var u := Clicked(v);
    var p := Posted(u, |v.creating|);
    w := Notified(p, c, chat);
  }

  /** A notification delivered to the mounted view merges into the list and
      changes nothing else. */
  lemma Notified(v: ListView, c: nat, chat: Chat) returns (w: ListView)
    requires Valid(v) && v.mounted && Enabled(v, Inbound(c, Parsed(chat)))
    ensures w == Step(v, Inbound(c, Parsed(chat))) && Valid(w)
    ensures w == v.(chats := Dedup.AppendNew(v.chats, chat, ChatId))
  {
    w := Step(v, Inbound(c, Parsed(chat)));
  }

  /** But a notification about a different chat that arrives while the
      token is awaited is overwritten by the response: the list the click
      captured does not contain it. */
  lemma NotificationDuringCreateLost(v: ListView, c: nat, other: Chat, chat: Chat)
    requires Valid(v) && v.mounted && HasUserId(v) && v.isUserCreated
    requires ChatInput.ParseChatInput(v.input).Request?
    requires !Dedup.HasId(v.chats, ChatId, other.id) && other != chat
    requires Enabled(v, Inbound(c, Parsed(other)))
    ensures other in Step(Step(v, CreateChat), Inbound(c, Parsed(other))).chats
    ensures other !in Step(Step(Step(Step(v, CreateChat), Inbound(c, Parsed(other))), CreateTokenArrived(|v.creating|)),
                           Created(|v.requests|, Succeeded(chat))).chats
  {
    var w := NotifiedThenPosted(v, c, other);
    var x := Answered(w, |v.requests|, chat);
    assert other !in x.chats by {
      assert x.chats == v.chats + [chat];
      Dedup.AbsentIdAbsent(v.chats, other, ChatId);
    }
  }

  /** Click, a notification for a chat not yet listed, then the token: the
      chat is listed, but the request carries the list as it was at the
      click. */
  lemma NotifiedThenPosted(v: ListView, c: nat, other: Chat) returns (w: ListView)
    requires Valid(v) && v.mounted && HasUserId(v) && v.isUserCreated
    requires ChatInput.ParseChatInput(v.input).Request?
    requires !Dedup.HasId(v.chats, ChatId, other.id)
    requires Enabled(v, Inbound(c, Parsed(other)))
    ensures other in Step(Step(v, CreateChat), Inbound(c, Parsed(other))).chats
    ensures w == Step(Step(Step(v, CreateChat), Inbound(c, Parsed(other))), CreateTokenArrived(|v.creating|)) && Valid(w)
    ensures |w.requests| == |v.requests| + 1 && w.requests[|v.requests|].snapshot == v.chats
  {
    var u := Clicked(v);
    var n := Notified(u, c, other);
    assert n.chats == v.chats + [other];
    w := Posted(n, |v.creating|);
  }

  /** A successful creation response sets the list to its request's
      snapshot plus the new chat. */
  lemma Answered(v: ListView, k: nat, chat: Chat) returns (w: ListView)
    requires Valid(v) && k < |v.requests|
    ensures w == Step(v, Created(k, Succeeded(chat)))
    ensures w.chats == v.requests[k].snapshot + [chat] && w.input == "" && w.error == ""
    ensures w.requests == v.requests[..k] + v.requests[k + 1..]
  {
    w := Step(v, Created(k, Succeeded(chat)));
  }
}

=== FILE: chat_window.dfy ===
/** The conversation view (`ChatWindow`): its connection-attempt guard, the
    stompjs client callbacks it installs, the merge it applies to inbound
    frames, its effect cleanup and its send gate.

    Every asynchronous continuation is an explicit event. The refs and state
    of the component are fields of `View`; the stompjs `Client` objects the
    view has built are kept in `clients`, in creation order, and `stored` is
    `clientRef.current` as an index into that list. A `setupWebSocket` call
    suspended at `await getToken()` is an entry of `pending` holding the
    `chatId` its closure captured. */
module ChatWindow {
  import opened Common
  import opened Destinations
  import opened StompClient
  import JsString
  import Bearer
  import Dedup

  /** A delivered message as the view parses it. */
  datatype Message = Message(id: int, chatId: int, senderId: string, content: string, timestamp: string)

  function MessageId(m: Message): int { m.id }

  /** The body of an inbound frame after `JSON.parse`. */
  datatype Body = Parsed(msg: Message) | Unparsable

  /** One stompjs client. `chatId` is what the building closure captured.
      `active`, `socketOpen` and `connected` are the library's own state;
      `activating` marks an `await client.activate()` that has not settled. */
  datatype Client = Client(
    chatId: int,
    authorization: string,
    active: bool,
    socketOpen: bool,
    connected: bool,
    activating: bool,
    subscription: Option<Subscription>,
    userSubscription: Option<Subscription>)

  /** A published frame: destination and JSON body `{senderId, content}`,
      sent with `content-type: application/json`. */
  datatype Publish = Publish(destination: string, senderId: string, content: string)

  datatype View = View(
    chatId: int,              // the `chatId` prop of the current render
    mounted: bool,            // isComponentMountedRef
    attempt: bool,            // connectionAttemptRef
    isConnected: bool,
    error: Option<string>,
    stored: Option<nat>,      // clientRef
    clients: seq<Client>,
    pending: seq<int>,        // suspended setupWebSocket calls, by captured chatId
    messages: seq<Message>,
    draft: string,            // newMessage
    published: seq<Publish>)

  const AuthFailedText: string := "Authentication failed. Please log in again."
  const ConnectionErrorText: string := "Connection error. Please check your internet connection."
  const ConnectionLostText: string := "Connection lost. Attempting to reconnect..."
  const ActivateFailedText: string := "Failed to connect to chat server. Please refresh the page."
  const SetupFailedText: string := "Failed to setup chat connection. Please refresh the page."
  const SendFailedText: string := "Failed to send message. Please try again."

  /** `STOMP Error: ${frame.headers['message'] || 'Unknown error'}`. */
  function StompErrorText(message: Option<string>): string {
    "STOMP Error: " + (if message.None? || message.value == "" then "Unknown error" else message.value)
  }

  /** The component right after its first render: refs at their initial
      values, no effect has run yet. */
  function Initial(chatId: int): View {
    View(chatId, true, false, false, None, None, [], [], [], "", [])
  }

  /** `clientRef` points into the list of built clients. */
  predicate Valid(v: View) {
    v.stored.Some? ==> v.stored.value < |v.clients|
  }

  /** The stored client holds exactly the two subscriptions of the
      conversation it was built for. */
  predicate HoldsChatSubscriptions(c: Client) {
    && c.subscription.Some? && c.subscription.value.destination == ChatTopic(c.chatId)
    && c.userSubscription.Some? && c.userSubscription.value.destination == UserChatQueue(c.chatId)
  }

  predicate Inv(v: View) {
    Valid(v) && (v.stored.Some? ==> HoldsChatSubscriptions(v.clients[v.stored.value]))
  }

  // ---------------------------------------------------------------------
  // Client-level helpers

  /** Unsubscribe both handles, then `deactivate()`. */
  function Retire(c: Client): (r: Client)
    ensures !r.active && !r.connected
    ensures r.subscription.Some? ==> !r.subscription.value.live
    ensures r.userSubscription.Some? ==> !r.userSubscription.value.live
    ensures r.chatId == c.chatId && r.authorization == c.authorization && r.socketOpen == c.socketOpen
  {
    c.(subscription := Unsubscribe(c.subscription),
       userSubscription := Unsubscribe(c.userSubscription),
       active := false, connected := false)
  }

  /** A freshly built client on which `activate()` has been called. */
  function NewClient(chatId: int, token: string): Client {
    Client(chatId, Bearer.Header(token), true, true, false, true, None, None)
  }

  /** The library can complete a STOMP handshake on this client. */
  predicate CanConnect(c: Client) {
    c.active && c.socketOpen && !c.connected
  }

  /** The library delivers a frame to this client's handler for the topic
      (`onUserQueue == false`) or the user queue subscription. */
  predicate Delivers(c: Client, onUserQueue: bool) {
    var s := if onUserQueue then c.userSubscription else c.subscription;
    c.connected && s.Some? && s.value.live
  }

  /** Tear down the stored client, if any, and clear the reference. Every
      other client is left as it was. */
  function ReleaseStored(v: View): (r: View)
    requires Valid(v)
    ensures r.stored.None? && |r.clients| == |v.clients|
    ensures v.stored.Some? ==> r.clients[v.stored.value] == Retire(v.clients[v.stored.value])
    ensures forall i :: 0 <= i < |v.clients| && v.stored != Some(i) ==> r.clients[i] == v.clients[i]
    ensures r == v.(stored := None, clients := r.clients)
  {
    match v.stored
    case None => v
    case Some(i) => v.(stored := None, clients := v.clients[i := Retire(v.clients[i])])
  }

  // ---------------------------------------------------------------------
  // setupWebSocket and the effect

  /** `setupWebSocket()` up to `await getToken()`. Nothing changes while an
      attempt is in progress or the view is unmounted; otherwise the attempt
      flag is set before the token is awaited, and exactly one continuation
      for the current conversation is suspended. */
  function SetupWebSocket(v: View): (r: View)
    ensures v.attempt || !v.mounted ==> r == v
    ensures !v.attempt && v.mounted ==> r.attempt && r.pending == v.pending + [v.chatId]
    ensures r == v.(attempt := r.attempt, pending := r.pending)
  {
    if v.attempt || !v.mounted then v
    else v.(attempt := true, pending := v.pending + [v.chatId])
  }

  /** The effect body: mark mounted, start `setupWebSocket`. (The history
      fetch it also starts is the separate `HistoryLoaded` event.) */
  function OnMount(v: View, chatId: int): (r: View)
    ensures r.mounted && r.chatId == chatId
    ensures v.attempt ==> r.pending == v.pending && r.attempt
    ensures !v.attempt ==> r.attempt && r.pending == v.pending + [chatId]
    ensures r.clients == v.clients && r.stored == v.stored
    ensures r == v.(chatId := chatId, mounted := true, attempt := r.attempt, pending := r.pending)
  {
    SetupWebSocket(v.(chatId := chatId, mounted := true))
  }

  /** The effect cleanup. `mounted` goes false first. When a client is
      stored, both subscriptions are unsubscribed, it is deactivated, the
      reference is cleared and `isConnected`, `error` and the attempt flag
      are reset; when none is stored the attempt flag is left as it was. */
  function OnCleanup(v: View): (r: View)
    requires Valid(v)
    ensures !r.mounted && r.stored.None? && |r.clients| == |v.clients|
    ensures v.stored.Some? ==> && !r.attempt && !r.isConnected && r.error.None?
                               && r.clients[v.stored.value] == Retire(v.clients[v.stored.value])
    ensures v.stored.None? ==> r == v.(mounted := false)
    ensures forall i :: 0 <= i < |v.clients| && v.stored != Some(i) ==> r.clients[i] == v.clients[i]
    ensures r.messages == v.messages && r.pending == v.pending && r.published == v.published
    ensures r == v.(mounted := false, stored := r.stored, clients := r.clients,
                    isConnected := r.isConnected, error := r.error, attempt := r.attempt)
  {
    var w := v.(mounted := false);
    if w.stored.Some? then
      ReleaseStored(w).(isConnected := false, error := None, attempt := false)
    else w
  }

  /** Drop entry `k` of the suspended continuations. */
  function Resume(pending: seq<int>, k: nat): (r: seq<int>)
    requires k < |pending|
    ensures |r| == |pending| - 1
    ensures multiset(r) == multiset(pending) - multiset{pending[k]}
  {
    assert pending == pending[..k] + [pending[k]] + pending[k + 1..];
    pending[..k] + pending[k + 1..]
  }

  /** The continuation after `await getToken()`. A null or empty token sets
      the authentication error and clears the attempt flag, builds nothing
      and leaves any stored client alone (and does not look at `mounted`).
      Otherwise the stored client, if any, is torn down and unreferenced,
      and one new client is built for the captured conversation with header
      `Bearer <token>` and activated; it is not stored. */
  function OnToken(v: View, k: nat, token: Option<string>): (r: View)
    requires Valid(v) && k < |v.pending|
    ensures r.pending == Resume(v.pending, k)
    ensures token.None? || token.value == "" ==>
              r == v.(pending := r.pending, error := Some(AuthFailedText), attempt := false)
    ensures token.Some? && token.value != "" ==>
              && r.stored.None?
              && |r.clients| == |v.clients| + 1
              && r.clients[|v.clients|] == NewClient(v.pending[k], token.value)
              && (v.stored.Some? ==> r.clients[v.stored.value] == Retire(v.clients[v.stored.value]))
              && (forall i :: 0 <= i < |v.clients| && v.stored != Some(i) ==> r.clients[i] == v.clients[i])
              && r.attempt == v.attempt && r.error == v.error && r.isConnected == v.isConnected
    ensures token.Some? && token.value != "" ==> r == v.(pending := r.pending, clients := r.clients, stored := r.stored)
  {
    var w := v.(pending := Resume(v.pending, k));
    if token.None? || token.value == "" then
      w.(error := Some(AuthFailedText), attempt := false)
    else
      var u := ReleaseStored(w);
      u.(clients := u.clients + [NewClient(v.pending[k], token.value)])
  }

  /** The outer `catch` of `setupWebSocket`, reached when the awaited token
      request rejects. */
  function OnTokenFailed(v: View, k: nat): (r: View)
    requires k < |v.pending|
    ensures r.pending == Resume(v.pending, k) && r.clients == v.clients && r.stored == v.stored
    ensures v.mounted ==> !r.attempt && !r.isConnected && r.error == Some(SetupFailedText)
    ensures !v.mounted ==> r == v.(pending := r.pending)
    ensures r == v.(pending := r.pending, isConnected := r.isConnected, error := r.error, attempt := r.attempt)
  {
    var w := v.(pending := Resume(v.pending, k));
    if !v.mounted then w
    else w.(isConnected := false, error := Some(SetupFailedText), attempt := false)
  }

  // ---------------------------------------------------------------------
  // Client callbacks

  /** The common shape of the error, close and activate-failure callbacks:
      a no-op when unmounted, otherwise `isConnected` false, `error` as
      given (unchanged when `None`), attempt flag cleared. */
  function Disconnected(v: View, error: Option<string>): (r: View)
    ensures !v.mounted ==> r == v
    ensures v.mounted ==> !r.isConnected && !r.attempt
    ensures v.mounted ==> r.error == (if error.Some? then error else v.error)
    ensures r == v.(isConnected := r.isConnected, attempt := r.attempt, error := r.error)
  {
    if !v.mounted then v
    else v.(isConnected := false, error := if error.Some? then error else v.error, attempt := false)
  }

  /** `await client.activate()` rejected. */
  function OnActivateFailed(v: View, c: nat): (r: View)
    requires c < |v.clients|
    ensures |r.clients| == |v.clients| && !r.clients[c].activating
    ensures v.mounted ==> !r.isConnected && !r.attempt && r.error == Some(ActivateFailedText)
    ensures !v.mounted ==> r == v.(clients := r.clients)
    ensures r == v.(clients := v.clients[c := v.clients[c].(activating := false)],
                    isConnected := r.isConnected, error := r.error, attempt := r.attempt)
  {
    Disconnected(v.(clients := v.clients[c := v.clients[c].(activating := false)]), Some(ActivateFailedText))
  }

  /** The library completed the STOMP handshake on client `c` and calls
      `onConnect`. While mounted this is the only place the reference is
      assigned: connected, error cleared, attempt cleared, exactly the
      conversation's topic and user queue subscribed, client stored. */
  function OnConnect(v: View, c: nat): (r: View)
    requires c < |v.clients|
    ensures |r.clients| == |v.clients| && r.clients[c].connected
    ensures v.mounted ==> && r.isConnected && r.error.None? && !r.attempt && r.stored == Some(c)
                          && r.clients[c].subscription == Some(Subscription(ChatTopic(v.clients[c].chatId), true))
                          && r.clients[c].userSubscription == Some(Subscription(UserChatQueue(v.clients[c].chatId), true))
    ensures !v.mounted ==> r == v.(clients := r.clients)
    ensures forall i :: 0 <= i < |v.clients| && i != c ==> r.clients[i] == v.clients[i]
    ensures r == v.(clients := r.clients, stored := r.stored, isConnected := r.isConnected,
                    error := r.error, attempt := r.attempt)
  {
    var lib := v.clients[c].(connected := true);
    if !v.mounted then v.(clients := v.clients[c := lib])
    else
      var client := lib.(subscription := Some(Subscription(ChatTopic(lib.chatId), true)),
                         userSubscription := Some(Subscription(UserChatQueue(lib.chatId), true)));
      v.(isConnected := true, error := None, attempt := false,
         clients := v.clients[c := client], stored := Some(c))
  }

  /** The connection of client `c` went away: the library marks it
      disconnected and its subscriptions dead; then `onWebSocketClose`. An
      unclean close sets the reconnect message, a clean one no error. */
  function OnClose(v: View, c: nat, wasClean: bool): (r: View)
    requires c < |v.clients|
    ensures |r.clients| == |v.clients| && !r.clients[c].connected && !r.clients[c].socketOpen
    ensures r.clients[c].subscription == Unsubscribe(v.clients[c].subscription)
    ensures r.clients[c].userSubscription == Unsubscribe(v.clients[c].userSubscription)
    ensures r.clients[c].active == v.clients[c].active && r.clients[c].chatId == v.clients[c].chatId
    ensures forall i :: 0 <= i < |v.clients| && i != c ==> r.clients[i] == v.clients[i]
    ensures v.mounted ==> !r.isConnected && !r.attempt
    ensures v.mounted ==> r.error == if wasClean then v.error else Some(ConnectionLostText)
    ensures !v.mounted ==> r == v.(clients := r.clients)
    ensures r.stored == v.stored && r.messages == v.messages
    ensures r == v.(clients := r.clients, isConnected := r.isConnected, error := r.error, attempt := r.attempt)
  {
    var old_ := v.clients[c];
    var lib := old_.(socketOpen := false, connected := false,
                     subscription := Unsubscribe(old_.subscription),
                     userSubscription := Unsubscribe(old_.userSubscription));
    Disconnected(v.(clients := v.clients[c := lib]), if wasClean then None else Some(ConnectionLostText))
  }

  /** A frame arrived on one of client `c`'s subscriptions. A no-op when
      unmounted or when the body does not parse; otherwise the merge. */
  function OnFrame(v: View, body: Body): (r: View)
    ensures v.messages <= r.messages && |r.messages| <= |v.messages| + 1
    ensures !v.mounted || body.Unparsable? ==> r == v
    ensures Dedup.DistinctIds(v.messages, MessageId) ==> Dedup.DistinctIds(r.messages, MessageId)
    ensures v.mounted && body.Parsed? ==>
              (r.messages == v.messages <==> Dedup.HasId(v.messages, MessageId, body.msg.id))
    ensures r == v.(messages := r.messages)
  {
    if !v.mounted then v
    else match body
      case Unparsable => v
      case Parsed(m) => v.(messages := Dedup.AppendNew(v.messages, m, MessageId))
  }

  // ---------------------------------------------------------------------
  // sendMessage

  /** The three checks at the top of `sendMessage`: a user id, a draft that
      is not all space, and an active stored client. */
  predicate SendGate(v: View, userId: Option<string>)
    requires Valid(v)
  {
    && userId.Some? && userId.value != ""
    && !JsString.AllSpace(v.draft)
    && v.stored.Some? && v.clients[v.stored.value].active
  }

  /** `sendMessage`. Nothing happens unless the gate passes. Then the trimmed
      draft is published to `/app/chat/{chatId}` if the client is connected
      and the publish succeeds, and only then is the draft cleared. On any
      failure the draft is kept, the error is set, and `setupWebSocket` is
      invoked again only when the client is not connected. */
  function OnSend(v: View, userId: Option<string>, publishOk: bool): (r: View)
    requires Valid(v)
    ensures !SendGate(v, userId) ==> r == v
    ensures v.published <= r.published && |r.published| <= |v.published| + 1
    ensures |r.published| > |v.published| ==>
              && r.published[|v.published|] == Publish(AppChat(v.chatId), userId.value, JsString.Trim(v.draft))
              && r.draft == ""
    ensures r.draft != v.draft ==> |r.published| > |v.published|
    ensures SendGate(v, userId) && |r.published| == |v.published| ==>
              r.error == Some(SendFailedText) && r.draft == v.draft
    ensures SendGate(v, userId) && v.clients[v.stored.value].connected && publishOk ==>
              && r.published == v.published + [Publish(AppChat(v.chatId), userId.value, JsString.Trim(v.draft))]
              && r.draft == "" && r.error == v.error && r.pending == v.pending && r.attempt == v.attempt
    ensures SendGate(v, userId) && v.clients[v.stored.value].connected && !publishOk ==>
              && r.published == v.published && r.draft == v.draft && r.error == Some(SendFailedText)
              && r.pending == v.pending && r.attempt == v.attempt
    ensures SendGate(v, userId) && !v.clients[v.stored.value].connected && v.mounted && !v.attempt ==>
              r.attempt && r.pending == v.pending + [v.chatId]
    ensures SendGate(v, userId) && !v.clients[v.stored.value].connected && (v.attempt || !v.mounted) ==>
              r.attempt == v.attempt && r.pending == v.pending
    ensures |r.pending| > |v.pending| ==> !v.clients[v.stored.value].connected
    ensures v.stored.Some? && !v.clients[v.stored.value].connected ==>
              r.published == v.published && r.draft == v.draft
    ensures r.clients == v.clients && r.stored == v.stored && r.messages == v.messages
    ensures r == v.(published := r.published, draft := r.draft, error := r.error,
                    attempt := r.attempt, pending := r.pending)
  {
    var content := JsString.Trim(v.draft);
    if userId.None? || userId.value == "" || content == [] || v.stored.None? || !v.clients[v.stored.value].active then v
    else
      var client := v.clients[v.stored.value];
      if client.connected && publishOk then
        v.(published := v.published + [Publish(AppChat(v.chatId), userId.value, content)], draft := "")
      else
        var w := v.(error := Some(SendFailedText));
        if !client.connected then SetupWebSocket(w) else w
  }

  // ---------------------------------------------------------------------
  // Events

  datatype Event =
    | Mount(chatId: int)                          // effect body
    | Cleanup                                     // effect cleanup
    | TokenArrived(k: nat, token: Option<string>) // `await getToken()` resolved
    | TokenFailed(k: nat)                         // `await getToken()` rejected
    | ActivateSettled(c: nat)                     // `await client.activate()` resolved
    | ActivateFailed(c: nat)                      // `await client.activate()` rejected
    | Connected(c: nat)                           // handshake completed
    | StompError(c: nat, message: Option<string>) // ERROR frame
    | SocketError(c: nat)
    | SocketClosed(c: nat, wasClean: bool)
    | Reopen(c: nat)                              // the library's reconnect timer fired
    | Inbound(c: nat, onUserQueue: bool, body: Body)
    | HistoryLoaded(history: seq<Message>)        // the REST history response
    | Edit(draft: string)                         // the input's onChange
    | Send(userId: Option<string>, publishOk: bool)

  /** Whether the library (or the runtime) can deliver event `e` in state
      `v`. Events that cannot occur leave the state alone. */
  predicate Enabled(v: View, e: Event) {
    match e
    case TokenArrived(k, _) => k < |v.pending|
    case TokenFailed(k) => k < |v.pending|
    case ActivateSettled(c) => c < |v.clients| && v.clients[c].activating
    case ActivateFailed(c) => c < |v.clients| && v.clients[c].activating
    case Connected(c) => c < |v.clients| && CanConnect(v.clients[c])
    case StompError(c, _) => c < |v.clients| && v.clients[c].socketOpen
    case SocketError(c) => c < |v.clients| && v.clients[c].socketOpen
    case SocketClosed(c, _) => c < |v.clients| && v.clients[c].socketOpen
    case Reopen(c) => c < |v.clients| && v.clients[c].active && !v.clients[c].socketOpen
    case Inbound(c, q, _) => c < |v.clients| && Delivers(v.clients[c], q)
    case _ => true
  }

  /** One transition of the view. */
  function Step(v: View, e: Event): (r: View)
    requires Valid(v)
    ensures Valid(r)
  {
    if !Enabled(v, e) then v
    else match e
      case Mount(chatId) => OnMount(v, chatId)
      case Cleanup => OnCleanup(v)
      case TokenArrived(k, token) => OnToken(v, k, token)
      case TokenFailed(k) => OnTokenFailed(v, k)
      case ActivateSettled(c) => v.(clients := v.clients[c := v.clients[c].(activating := false)])
      case ActivateFailed(c) => OnActivateFailed(v, c)
      case Connected(c) => OnConnect(v, c)
      case StompError(c, message) => Disconnected(v, Some(StompErrorText(message)))
      case SocketError(c) => Disconnected(v, Some(ConnectionErrorText))
      case SocketClosed(c, wasClean) => OnClose(v, c, wasClean)
      case Reopen(c) => v.(clients := v.clients[c := v.clients[c].(socketOpen := true)])
      case Inbound(c, q, body) => OnFrame(v, body)
      case HistoryLoaded(history) => v.(messages := history)
      case Edit(draft) => v.(draft := draft)
      case Send(userId, publishOk) => OnSend(v, userId, publishOk)
  }

  /** A sequence of events applied in order. */
  function Run(v: View, es: seq<Event>): (r: View)
    requires Valid(v)
    ensures Valid(r)
    decreases |es|
  {
    if |es| == 0 then v else Run(Step(v, es[0]), es[1..])
  }
}

=== FILE: chat_window_props.dfy ===
/** Properties of the conversation view that relate several events. */
module ChatWindowProps {
  import opened Common
  import opened Destinations
  import opened StompClient
  import opened ChatWindow
  import Dedup
  import JsString

  /** Each transition keeps the stored client holding exactly the two
      subscriptions of its own conversation. */
  lemma StepPreservesInv(v: View, e: Event)
    requires Inv(v)
    ensures Inv(Step(v, e))
  {
    var r := Step(v, e);
    if Enabled(v, e) && r.stored.Some? {
      match e
      case SocketClosed(c, wasClean) =>
        assert r.clients[r.stored.value].subscription.value.destination
            == v.clients[v.stored.value].subscription.value.destination;
      case ActivateSettled(c) =>
      case ActivateFailed(c) =>
      case Reopen(c) =>
      case _ =>
    }
  }

  lemma {:induction false} RunPreservesInv(v: View, es: seq<Event>)
    requires Inv(v)
    ensures Inv(Run(v, es))
    decreases |es|
  {
    if |es| > 0 {
      StepPreservesInv(v, es[0]);
      RunPreservesInv(Step(v, es[0]), es[1..]);
    }
  }

  /** `clientRef` is assigned only by `onConnect`: whenever a transition
      leaves a different client stored, it was the handshake of that
      client. */
  lemma StoredOnlyByConnect(v: View, e: Event)
    requires Valid(v)
    ensures var r := Step(v, e);
            r.stored.Some? && r.stored != v.stored ==> e.Connected? && r.stored == Some(e.c)
  {
  }

  /** While the attempt flag is set, no event suspends another token
      request: repeated activation or a failed send cannot start a second
      connection attempt. */
  lemma GuardBlocksSecondAttempt(v: View, e: Event)
    requires Valid(v) && v.attempt
    ensures |Step(v, e).pending| <= |v.pending|
  {
  }

  /** The part of the view the application observes. */
  function Observable(v: View): (bool, bool, Option<string>, Option<nat>, seq<Message>, string, seq<Publish>) {
    (v.attempt, v.isConnected, v.error, v.stored, v.messages, v.draft, v.published)
  }

  /** The callbacks that start by checking the liveness flag. */
  predicate GuardedCallback(e: Event) {
    e.TokenFailed? || e.ActivateFailed? || e.Connected? || e.StompError? || e.SocketError?
    || e.SocketClosed? || e.Inbound?
  }

  /** Once unmounted, every guarded callback leaves what the application
      observes untouched (only library state moves). */
  lemma UnmountedCallbacksInert(v: View, e: Event)
    requires Valid(v) && !v.mounted && GuardedCallback(e)
    ensures Observable(Step(v, e)) == Observable(v)
  {
  }

  /** Redelivery: the same frame delivered on either subscription twice has
      the effect of delivering it once. */
  lemma RedeliveryIdempotent(v: View, c: nat, q1: bool, q2: bool, body: Body)
    requires Valid(v)
    requires Enabled(v, Inbound(c, q1, body)) && Enabled(v, Inbound(c, q2, body))
    ensures Step(Step(v, Inbound(c, q1, body)), Inbound(c, q2, body)) == Step(v, Inbound(c, q1, body))
  {
    var w := Step(v, Inbound(c, q1, body));
    assert w.clients == v.clients;
    if v.mounted && body.Parsed? {
      Dedup.AppendNewIdempotent(v.messages, body.msg, MessageId);
    }
  }

  /** History responses in `es` carry distinct ids. */
  predicate DistinctHistories(es: seq<Event>) {
    forall i :: 0 <= i < |es| && es[i].HistoryLoaded? ==> Dedup.DistinctIds(es[i].history, MessageId)
  }

  /** The message list never holds two messages with the same id, provided
      the history responses did not. */
  lemma {:induction false} RunKeepsIdsDistinct(v: View, es: seq<Event>)
    requires Valid(v) && Dedup.DistinctIds(v.messages, MessageId) && DistinctHistories(es)
    ensures Dedup.DistinctIds(Run(v, es).messages, MessageId)
    decreases |es|
  {
    if |es| > 0 {
      assert DistinctHistories(es[1..]) by {
        forall i | 0 <= i < |es[1..]| && es[1..][i].HistoryLoaded?
          ensures Dedup.DistinctIds(es[1..][i].history, MessageId)
        {
          assert es[1..][i] == es[i + 1];
        }
      }
      assert Dedup.DistinctIds(Step(v, es[0]).messages, MessageId) by {
        if Enabled(v, es[0]) && es[0].HistoryLoaded? {
          assert es[0] == es[0];
        }
      }
      RunKeepsIdsDistinct(Step(v, es[0]), es[1..]);
    }
  }

  /** A single transition on an unmounted view that is neither the effect
      body nor a history response leaves the list alone and the view
      unmounted. */
  lemma StepUnmounted(v: View, e: Event)
    requires Valid(v) && !v.mounted && !e.Mount? && !e.HistoryLoaded?
    ensures Step(v, e).messages == v.messages && !Step(v, e).mounted
  {
    if Enabled(v, e) {
      match e
      case Send(userId, ok) =>
      case Inbound(c, q, body) =>
      case _ =>
    }
  }

  /** Teardown is final for the message list: once unmounted, and until the
      effect runs again, no frame on any client changes the list. */
  lemma {:induction false} UnmountedFramesDropped(v: View, es: seq<Event>)
    requires Valid(v) && !v.mounted
    requires forall i :: 0 <= i < |es| ==> !es[i].Mount? && !es[i].HistoryLoaded?
    ensures Run(v, es).messages == v.messages
    ensures !Run(v, es).mounted
    decreases |es|
  {
    if |es| > 0 {
      StepUnmounted(v, es[0]);
      var rest := es[1..];
      assert forall i :: 0 <= i < |rest| ==> !rest[i].Mount? && !rest[i].HistoryLoaded? by {
        forall i | 0 <= i < |rest| ensures !rest[i].Mount? && !rest[i].HistoryLoaded? {
          assert rest[i] == es[i + 1];
        }
      }
      UnmountedFramesDropped(Step(v, es[0]), rest);
    }
  }

  /** Reconnection: after an unclean close, the library's reconnect and a new
      handshake, the mounted view has the same two subscriptions live again,
      on the same stored client, with the error cleared. */
  lemma ReconnectResubscribes(v: View, c: nat)
    requires Inv(v) && v.mounted && v.stored == Some(c)
    requires v.clients[c].active && v.clients[c].socketOpen && v.clients[c].connected
    ensures var w := Run(v, [SocketClosed(c, false), Reopen(c), Connected(c)]);
            && w.stored == Some(c) && w.isConnected && w.error.None? && !w.attempt
            && Delivers(w.clients[c], false) && Delivers(w.clients[c], true)
            && w.clients[c].subscription.value.destination == v.clients[c].subscription.value.destination
            && w.clients[c].userSubscription.value.destination == v.clients[c].userSubscription.value.destination
  {
    var w2 := ClosedAndReopened(v, c);
    var w3 := Step(w2, Connected(c));
    assert w3 == OnConnect(w2, c);
    RunThree(v, SocketClosed(c, false), Reopen(c), Connected(c));
  }

  /** The first two events of `ReconnectResubscribes`: the client is ready
      for a handshake again, still stored, on the same conversation. */
  lemma ClosedAndReopened(v: View, c: nat) returns (w: View)
    requires Inv(v) && v.mounted && v.stored == Some(c)
    requires v.clients[c].active && v.clients[c].socketOpen && v.clients[c].connected
    ensures w == Step(Step(v, SocketClosed(c, false)), Reopen(c))
    ensures Valid(w) && w.mounted && w.stored == Some(c) && c < |w.clients|
    ensures CanConnect(w.clients[c]) && w.clients[c].chatId == v.clients[c].chatId
  {
    var w1 := Step(v, SocketClosed(c, false));
    assert w1 == OnClose(v, c, false);
    w := Step(w1, Reopen(c));
  }

  /** Typing a message and pressing send twice on a connected client
      publishes the trimmed text once: the first send empties the draft, so
      the second fails the gate. */
  lemma TypedMessagePublishedOnce(v: View, userId: Option<string>, text: string)
    requires Valid(v) && v.stored.Some?
    requires v.clients[v.stored.value].active && v.clients[v.stored.value].connected
    requires userId.Some? && userId.value != "" && !JsString.AllSpace(text)
    ensures var w := Step(Step(Step(v, Edit(text)), Send(userId, true)), Send(userId, true));
            && w.published == v.published + [Publish(AppChat(v.chatId), userId.value, JsString.Trim(text))]
            && w.draft == "" && w.clients == v.clients && w.error == v.error
  {
    var w1 := v.(draft := text);
    assert Step(v, Edit(text)) == w1;
    SendStep(w1, userId, true);
    var w2 := OnSend(w1, userId, true);
    assert !SendGate(w2, userId) by {
      assert w2.draft == "";
      assert JsString.AllSpace(w2.draft);
    }
    SendStep(w2, userId, true);
  }

  /** A `Send` event is `sendMessage`. */
  lemma SendStep(v: View, userId: Option<string>, publishOk: bool)
    requires Valid(v)
    ensures Step(v, Send(userId, publishOk)) == OnSend(v, userId, publishOk)
  {
  }

  /** A send on a client whose connection is gone publishes nothing, keeps
      the draft, and starts `setupWebSocket` unless an attempt is in
      progress; the token it waits for builds a fresh client for the
      current conversation and retires the stale one. */
  lemma SendWhileDisconnectedReconnects(v: View, userId: Option<string>, publishOk: bool, token: string)
    requires Valid(v) && SendGate(v, userId) && !v.clients[v.stored.value].connected
    requires v.mounted && !v.attempt && token != ""
    ensures var w := Step(v, Send(userId, publishOk));
            && w.published == v.published && w.draft == v.draft && w.error == Some(SendFailedText)
            && w.attempt && w.pending == v.pending + [v.chatId]
    ensures var w := Step(Step(v, Send(userId, publishOk)), TokenArrived(|v.pending|, Some(token)));
            && w.pending == v.pending && w.stored.None? && |w.clients| == |v.clients| + 1
            && w.clients[|v.clients|] == NewClient(v.chatId, token)
            && w.clients[v.stored.value] == Retire(v.clients[v.stored.value])
  {
    var w := Step(v, Send(userId, publishOk));
    assert Resume(w.pending, |v.pending|) == v.pending;
  }

  /** Unfolds a run of three events. */
  lemma RunThree(v: View, e1: Event, e2: Event, e3: Event)
    requires Valid(v)
    ensures Run(v, [e1, e2, e3]) == Step(Step(Step(v, e1), e2), e3)
  {
    var w1 := Step(v, e1);
    var w2 := Step(w1, e2);
    var w3 := Step(w2, e3);
    assert [e1, e2, e3][1..] == [e2, e3];
    assert [e2, e3][1..] == [e3];
    assert Run(w3, []) == w3;
    assert Run(w2, [e3]) == w3;
    assert Run(w1, [e2, e3]) == w3;
  }

  /** Cold start and redelivery: the view mounts on conversation 7, the
      token arrives, the handshake completes, and the same message comes in
      on the topic and on the user queue; it is listed once. */
  lemma ColdStartDeliversOnce(m: Message)
    ensures var w := Run(Initial(7), [Mount(7), TokenArrived(0, Some("tok")), Connected(0),
                                      Inbound(0, false, Parsed(m)), Inbound(0, true, Parsed(m))]);
            && w.messages == [m] && w.stored == Some(0) && w.isConnected && !w.attempt
            && w.clients[0].authorization == "Bearer tok"
            && w.clients[0].subscription == Some(Subscription(ChatTopic(7), true))
            && w.clients[0].userSubscription == Some(Subscription(UserChatQueue(7), true))
  {
    var v3 := ColdStartConnected();
    TwoDeliveries(v3, 0, m);
    RunFive(Initial(7), Mount(7), TokenArrived(0, Some("tok")), Connected(0),
            Inbound(0, false, Parsed(m)), Inbound(0, true, Parsed(m)));
  }

  /** Helper: mount, token and handshake on conversation 7. */
  lemma ColdStartConnected() returns (v3: View)
    ensures v3 == Step(Step(Step(Initial(7), Mount(7)), TokenArrived(0, Some("tok"))), Connected(0))
    ensures Valid(v3) && v3.mounted && v3.stored == Some(0) && v3.messages == [] && |v3.clients| == 1
    ensures v3.isConnected && !v3.attempt
    ensures Delivers(v3.clients[0], false) && Delivers(v3.clients[0], true)
    ensures v3.clients[0].authorization == "Bearer tok"
    ensures v3.clients[0].subscription == Some(Subscription(ChatTopic(7), true))
    ensures v3.clients[0].userSubscription == Some(Subscription(UserChatQueue(7), true))
  {
    var v2 := ColdStartToken();
    v3 := Step(v2, Connected(0));
    ColdStartHandshake(v2);
  }

  /** Helper: mount and token on conversation 7 build one client, not yet
      stored. */
  lemma ColdStartToken() returns (v2: View)
    ensures v2 == Step(Step(Initial(7), Mount(7)), TokenArrived(0, Some("tok")))
    ensures v2 == View(7, true, true, false, None, None, [NewClient(7, "tok")], [], [], "", [])
  {
    var v1 := Step(Initial(7), Mount(7));
    assert v1 == View(7, true, true, false, None, None, [], [7], [], "", []);
    v2 := Step(v1, TokenArrived(0, Some("tok")));
  }

  /** Helper: the handshake of that client stores it with both
      subscriptions. */
  lemma ColdStartHandshake(v2: View)
    requires v2 == View(7, true, true, false, None, None, [NewClient(7, "tok")], [], [], "", [])
    ensures var v3 := Step(v2, Connected(0));
            && Valid(v3) && v3.mounted && v3.stored == Some(0) && v3.messages == [] && |v3.clients| == 1
            && v3.isConnected && !v3.attempt
            && Delivers(v3.clients[0], false) && Delivers(v3.clients[0], true)
            && v3.clients[0].authorization == "Bearer tok"
            && v3.clients[0].subscription == Some(Subscription(ChatTopic(7), true))
            && v3.clients[0].userSubscription == Some(Subscription(UserChatQueue(7), true))
  {
    assert Enabled(v2, Connected(0));
  }

  /** The liveness flag is one boolean shared by every activation, and the
      cleanup leaves the attempt flag set when no client was stored yet. So
      when the view switches from conversation 1 to conversation 2 while the
      first token request is outstanding, the new activation starts no
      attempt of its own, the stale continuation finds the view mounted
      again, and the view ends up connected to conversation 1's topics while
      showing conversation 2. */
  lemma StaleActivationSubscribesPreviousChat()
    ensures var w := Run(Initial(1), [Mount(1), Cleanup, Mount(2)]);
            w.chatId == 2 && w.mounted && w.attempt && w.pending == [1]
    ensures var w := Run(Initial(1), [Mount(1), Cleanup, Mount(2), TokenArrived(0, Some("tok")), Connected(0)]);
            && w.chatId == 2 && w.stored == Some(0) && w.isConnected
            && w.clients[0].subscription == Some(Subscription(ChatTopic(1), true))
            && w.clients[0].userSubscription == Some(Subscription(UserChatQueue(1), true))
            && ChatTopic(1) != ChatTopic(w.chatId)
  {
    StaleSwitch();
    StaleConnect();
  }

  /** Helper: the first half, up to the second mount. */
  lemma StaleSwitch()
    ensures var w := Run(Initial(1), [Mount(1), Cleanup, Mount(2)]);
            w.chatId == 2 && w.mounted && w.attempt && w.pending == [1]
  {
    var v3 := SwitchedBeforeToken();
    RunThree(Initial(1), Mount(1), Cleanup, Mount(2));
  }

  /** Helper: the second half, the stale token and its handshake. */
  lemma StaleConnect()
    ensures var w := Run(Initial(1), [Mount(1), Cleanup, Mount(2), TokenArrived(0, Some("tok")), Connected(0)]);
            && w.chatId == 2 && w.stored == Some(0) && w.isConnected
            && w.clients[0].subscription == Some(Subscription(ChatTopic(1), true))
            && w.clients[0].userSubscription == Some(Subscription(UserChatQueue(1), true))
            && ChatTopic(1) != ChatTopic(w.chatId)
  {
    var v3 := SwitchedBeforeToken();
    StaleTokenConnects(v3);
    RunFive(Initial(1), Mount(1), Cleanup, Mount(2), TokenArrived(0, Some("tok")), Connected(0));
    ChatTopicsDiffer();
  }

  /** Helper: the two conversations have different topics. */
  lemma ChatTopicsDiffer()
    ensures ChatTopic(1) != ChatTopic(2)
  {
    assert ChatTopic(1)[12] == '1' && ChatTopic(2)[12] == '2';
  }

  /** Helper: the view after mounting on conversation 1, cleaning up and
      mounting on conversation 2, before any token arrived. */
  lemma SwitchedBeforeToken() returns (v3: View)
    ensures v3 == Step(Step(Step(Initial(1), Mount(1)), Cleanup), Mount(2))
    ensures v3 == View(2, true, true, false, None, None, [], [1], [], "", [])
  {
    var v1 := Step(Initial(1), Mount(1));
    assert v1 == View(1, true, true, false, None, None, [], [1], [], "", []);
    var v2 := Step(v1, Cleanup);
    assert v2 == View(1, false, true, false, None, None, [], [1], [], "", []);
    v3 := Step(v2, Mount(2));
  }

  /** Helper: the stale continuation then builds a client for conversation
      1, and its handshake stores it. */
  lemma StaleTokenConnects(v3: View)
    requires v3 == View(2, true, true, false, None, None, [], [1], [], "", [])
    ensures var w := Step(Step(v3, TokenArrived(0, Some("tok"))), Connected(0));
            && w.chatId == 2 && w.stored == Some(0) && w.isConnected
            && w.clients[0].subscription == Some(Subscription(ChatTopic(1), true))
            && w.clients[0].userSubscription == Some(Subscription(UserChatQueue(1), true))
  {
    var v4 := Step(v3, TokenArrived(0, Some("tok")));
    assert v4.clients == [NewClient(1, "tok")] && v4.mounted && v4.chatId == 2;
    assert Enabled(v4, Connected(0));
  }

  /** Helper: on a mounted view with an empty list whose client 0 has both
      subscriptions live, two deliveries of one message list it once. */
  lemma TwoDeliveries(v: View, c: nat, m: Message)
    requires Valid(v) && v.mounted && v.messages == [] && c < |v.clients|
    requires Delivers(v.clients[c], false) && Delivers(v.clients[c], true)
    ensures var w := Step(Step(v, Inbound(c, false, Parsed(m))), Inbound(c, true, Parsed(m)));
            w.messages == [m] && w.clients == v.clients && w.stored == v.stored
            && w.isConnected == v.isConnected && w.attempt == v.attempt
  {
    var v4 := Step(v, Inbound(c, false, Parsed(m)));
    assert v4.messages == [m] by {
      assert !Dedup.HasId(v.messages, MessageId, m.id);
    }
    RedeliveryIdempotent(v, c, false, true, Parsed(m));
  }

  /** Unfolds a run of five events. */
  lemma RunFive(v: View, e1: Event, e2: Event, e3: Event, e4: Event, e5: Event)
    requires Valid(v)
    ensures Run(v, [e1, e2, e3, e4, e5]) == Step(Step(Step(Step(Step(v, e1), e2), e3), e4), e5)
  {
    var w1 := Step(v, e1);
    var w2 := Step(w1, e2);
    assert [e1, e2, e3, e4, e5][1..] == [e2, e3, e4, e5];
    assert [e2, e3, e4, e5][1..] == [e3, e4, e5];
    RunThree(w2, e3, e4, e5);
    assert Run(w1, [e2, e3, e4, e5]) == Run(w2, [e3, e4, e5]);
  }
}

=== FILE: common.dfy ===
/** Small shared vocabulary: optional values, decimal rendering of numbers
    (JavaScript template literals and Java string concatenation agree on it
    for integers), and string prefixes. */
module Common {

  /** A value that may be absent (`null`/`undefined` in the source). */
  datatype Option<+T> = None | Some(value: T) {

    /** Returns the value, or `default` when absent. */
    function GetOr(default: T): T {
      match this
      case Some(v) => v
      case None => default
    }
  }

  /** True when `prefix` is an initial segment of `s` (`String.startsWith`). */
  predicate StartsWith(s: string, prefix: string) {
    |prefix| <= |s| && s[..|prefix|] == prefix
  }

  function DigitChar(d: nat): (c: char)
    requires d < 10
    ensures '0' <= c <= '9'
  {
    "0123456789"[d]
  }

  /** Decimal digits of `n`, most significant first, without leading zeros. */
  function NatToString(n: nat): (r: string)
    ensures 1 <= |r|
    ensures forall i :: 0 <= i < |r| ==> '0' <= r[i] <= '9'
    ensures n < 10 <==> |r| == 1
    decreases n
  {
    if n < 10 then [DigitChar(n)] else NatToString(n / 10) + [DigitChar(n % 10)]
  }

  /** Decimal rendering of an integer, with a leading `-` when negative. */
  function IntToString(i: int): (r: string)
    ensures 1 <= |r|
    ensures r[0] == '-' <==> i < 0
  {
    if i < 0 then "-" + NatToString(-i) else NatToString(i)
  }
}

=== FILE: controller.dfy ===
/** The request handlers of `ChatController`: the user upsert, chat creation
    with its membership rows and notifications, and the STOMP `sendMessage`
    route. Each handler is a function (or a method, where it loops) from the
    caller's identity, the request and the tables to the response, the new
    tables and the emitted frames. */
module Controller {
  import opened Common
  import opened Destinations
  import opened Server

  /** The tables as the database keeps them: users keyed by id, with the
      e-mail column unique. */
  predicate Stored(users: seq<User>) {
    IdsUnique(users) && EmailsUnique(users)
  }

  // ---------------------------------------------------------------- users

  /** The body of `POST /api/users`. */
  datatype UserRequest = UserRequest(email: Option<string>, name: Option<string>)

  /** The outcome of the upsert: the response, the user table afterwards,
      and whether a save was committed. */
  datatype Upserted = Upserted(response: Response<User>, users: seq<User>, saved: bool)

  const EmailRequiredText: string := "Email is required"
  const UpsertFailedPrefix: string := "Failed to create/update user: "

  /** The request differs from what is stored for the caller (or nothing is
      stored yet). */
  predicate Changes(stored: Option<User>, req: UserRequest) {
    stored.None? || stored.value.email != req.email || stored.value.name != req.name
  }

  /** `createOrUpdateUser`. A missing e-mail is refused before anything
      else. A token without a subject fails in the lookup. Otherwise the
      caller's row is written, with id = subject and the request's e-mail and
      name, exactly when the caller is new or a field differs; a write that
      would give a second user the same e-mail fails on the unique column and
      leaves the table alone. The 200 body is always the caller as the
      request describes them. */
  function CreateOrUpdateUser(subject: Option<string>, req: UserRequest, users: seq<User>): (r: Upserted)
    requires Stored(users)
    ensures Stored(r.users)
    ensures !r.saved ==> r.users == users
    ensures req.email.None? ==> r == Upserted(BadRequest(EmailRequiredText), users, false)
    ensures req.email.Some? && subject.None? ==> r == Upserted(Failed(UpsertFailedPrefix), users, false)
    ensures req.email.Some? && subject.Some? ==>
              var caller := User(subject.value, req.email, req.name);
              && (r.saved <==> Changes(FindUser(users, subject.value), req) && !EmailTaken(users, subject.value, req.email))
              && (r.response.Ok? <==> !(Changes(FindUser(users, subject.value), req) && EmailTaken(users, subject.value, req.email)))
              && (r.response.Ok? ==> r.response.body == caller && FindUser(r.users, subject.value) == Some(caller))
              && (!r.response.Ok? ==> r.response == Failed(UpsertFailedPrefix))
              && (forall id :: id != subject.value ==> FindUser(r.users, id) == FindUser(users, id))
  {
    if req.email.None? then Upserted(BadRequest(EmailRequiredText), users, false)
    else if subject.None? then Upserted(Failed(UpsertFailedPrefix), users, false)
    else
      var id := subject.value;
      var found := FindUser(users, id);
      // `orElse(new User())`: a fresh user has no id, e-mail or name
      var user := if found.Some? then found.value else User("", None, None);
      var emailChanged := req.email != user.email;
      var user1 := if emailChanged then user.(email := req.email) else user;
      var nameChanged := (req.name.Some? && req.name != user1.name) || (req.name.None? && user1.name.Some?);
      var user2 := if nameChanged then user1.(name := req.name) else user1;
      if found.None? || emailChanged || nameChanged then
        var row := user2.(id := id);
        if EmailTaken(users, id, row.email) then Upserted(Failed(UpsertFailedPrefix), users, false)
        else
          SaveKeepsStored(users, row);
          Upserted(Ok(row), SaveUser(users, row), true)
      else
        assert user2 == User(id, req.email, req.name);
        Upserted(Ok(user2), users, false)
  }

  /** Saving a row whose e-mail no other user holds keeps the table's keys
      unique, the row is what the lookup now finds, and no other lookup
      changes. */
  lemma SaveKeepsStored(users: seq<User>, row: User)
    requires Stored(users) && !EmailTaken(users, row.id, row.email)
    ensures Stored(SaveUser(users, row))
    ensures FindUser(SaveUser(users, row), row.id) == Some(row)
    ensures forall id :: id != row.id ==> FindUser(SaveUser(users, row), id) == FindUser(users, id)
  {
    var r := SaveUser(users, row);
    forall i, j | 0 <= i < j < |r| && r[i].email.Some? ensures r[i].email != r[j].email {
      if j == |users| {
        assert r[j] == row;
        if r[i] != row { assert users[i] == r[i]; }
      } else if r[i] == row || r[j] == row {
      } else {
        assert users[i] == r[i] && users[j] == r[j];
      }
    }
    var k :| 0 <= k < |r| && r[k].id == row.id;
    FindUserUnique(r, k);
    forall id | id != row.id ensures FindUser(r, id) == FindUser(users, id) {
      FindUserElsewhere(users, row, id);
    }
  }

  /** Helper: a save does not disturb the lookup of any other id. */
  lemma {:induction false} FindUserElsewhere(users: seq<User>, row: User, id: string)
    requires IdsUnique(users) && id != row.id
    ensures FindUser(SaveUser(users, row), id) == FindUser(users, id)
  {
    var r := SaveUser(users, row);
    if exists i :: 0 <= i < |users| && users[i].id == id {
      var i :| 0 <= i < |users| && users[i].id == id;
      FindUserUnique(users, i);
      assert r[i] == users[i];
      FindUserUnique(r, i);
    } else {
      assert forall i :: 0 <= i < |r| ==> r[i].id != id;
    }
  }

  /** Repeating a request that succeeded saves nothing and answers the
      same. */
  lemma UpsertIdempotent(subject: Option<string>, req: UserRequest, users: seq<User>)
    requires Stored(users)
    requires CreateOrUpdateUser(subject, req, users).response.Ok?
    ensures var first := CreateOrUpdateUser(subject, req, users);
            var again := CreateOrUpdateUser(subject, req, first.users);
            !again.saved && again.users == first.users && again.response == first.response
  {
  }

  /** A first request from a new subject creates the row: 200 with the
      subject as id and the request's e-mail. */
  lemma NewUserCreated(subject: string, req: UserRequest, users: seq<User>)
    requires Stored(users) && req.email.Some? && FindUser(users, subject).None?
    requires !EmailTaken(users, subject, req.email)
    ensures var r := CreateOrUpdateUser(Some(subject), req, users);
            r.saved && r.response == Ok(User(subject, req.email, req.name))
            && |r.users| == |users| + 1
  {
  }

  /** A request without a name clears a stored name. */
  lemma MissingNameClearsName(subject: string, email: string, users: seq<User>)
    requires Stored(users)
    requires FindUser(users, subject).Some? && FindUser(users, subject).value.name.Some?
    requires FindUser(users, subject).value.email == Some(email)
    ensures var r := CreateOrUpdateUser(Some(subject), UserRequest(Some(email), None), users);
            r.saved && FindUser(r.users, subject).value.name.None?
  {
    var u := FindUser(users, subject).value;
    assert !EmailTaken(users, subject, Some(email)) by {
      var i :| 0 <= i < |users| && users[i] == u;
      forall j | 0 <= j < |users| && users[j].id != subject ensures users[j].email != Some(email) {
        assert j != i;
      }
    }
  }

  // ---------------------------------------------------------------- chats

  /** The body of `POST /api/chats`. */
  datatype ChatRequest = ChatRequest(chatType: Option<string>, name: Option<string>,
                                     userEmails: Option<seq<string>>)

  /** The outcome of chat creation. */
  datatype Created = Created(response: Response<Chat>, db: Db, sends: seq<Send>)

  const NoSubjectText: string := "User ID not found in token"
  const NotRegisteredText: string := "Current user not found. Please ensure you are registered."

  /** The users the e-mails resolve to, in input order; an e-mail no user
      holds contributes nothing. */
  function Invitees(users: seq<User>, emails: seq<string>): (r: seq<User>)
    ensures |r| <= |emails|
    ensures forall k :: 0 <= k < |r| ==> r[k] in users && r[k].email.Some? && r[k].email.value in emails
    decreases |emails|
  {
    if |emails| == 0 then []
    else
      var last := emails[|emails| - 1];
      var rest := Invitees(users, emails[..|emails| - 1]);
      match FindByEmail(users, last)
      case None => rest
      case Some(u) => rest + [u]
  }

  /** One membership row of `chatId` per user, in order. */
  function MembersOf(chatId: int, us: seq<User>): (r: seq<Member>)
    ensures |r| == |us|
    ensures forall k :: 0 <= k < |r| ==> r[k] == Member(chatId, us[k].id)
    decreases |us|
  {
    if |us| == 0 then [] else MembersOf(chatId, us[..|us| - 1]) + [Member(chatId, us[|us| - 1].id)]
  }

  /** One new-chat notification per user, in order. */
  function Notices(chat: Chat, us: seq<User>): (r: seq<Send>)
    ensures |r| == |us|
    decreases |us|
  {
    if |us| == 0 then [] else Notices(chat, us[..|us| - 1]) + [ToTopic(UserChatsTopic(us[|us| - 1].id), ChatBody(chat))]
  }

  /** The `k`-th notification goes to the `k`-th user's chat-list topic
      and carries the chat. */
  lemma {:induction false} NoticeAt(chat: Chat, us: seq<User>, k: nat)
    requires k < |us|
    ensures Notices(chat, us)[k] == ToTopic(UserChatsTopic(us[k].id), ChatBody(chat))
    decreases |us|
  {
    if k < |us| - 1 {
      NoticeAt(chat, us[..|us| - 1], k);
    }
  }

  /** `createChat`. Without a subject, or for a caller with no user row,
      the answer is 400 and nothing is written or sent. Otherwise a chat with
      the next id and the request's type and name is saved; the membership
      rows are the caller's first and then one per resolved e-mail, in input
      order; one notification goes to each resolved invitee in that order,
      then one to the caller, last; the answer is 200 with the chat. */
  method CreateChat(subject: Option<string>, req: ChatRequest, db: Db) returns (r: Created)
    ensures subject.None? ==> r == Created(BadRequest(NoSubjectText), db, [])
    ensures subject.Some? && FindUser(db.users, subject.value).None? ==>
              r == Created(BadRequest(NotRegisteredText), db, [])
    ensures subject.Some? && FindUser(db.users, subject.value).Some? ==>
              var chat := Chat(db.nextChatId, req.chatType, req.name);
              var invited := Invitees(db.users, if req.userEmails.Some? then req.userEmails.value else []);
              && r.response == Ok(chat)
              && r.db == db.(chats := db.chats + [chat], nextChatId := db.nextChatId + 1,
                             members := db.members + [Member(chat.id, subject.value)] + MembersOf(chat.id, invited))
              && r.sends == Notices(chat, invited) + [ToTopic(UserChatsTopic(subject.value), ChatBody(chat))]
  {
    if subject.None? {
      return Created(BadRequest(NoSubjectText), db, []);
    }
    var callerId := subject.value;
    if FindUser(db.users, callerId).None? {
      return Created(BadRequest(NotRegisteredText), db, []);
    }
    var chat := Chat(db.nextChatId, req.chatType, req.name);
    var emails := if req.userEmails.Some? then req.userEmails.value else [];
    var added, notices := AddInvitees(chat, db.users, emails);
    r := Created(Ok(chat),
                 db.(chats := db.chats + [chat], nextChatId := db.nextChatId + 1,
                     members := db.members + [Member(chat.id, callerId)] + added),
                 notices + [ToTopic(UserChatsTopic(callerId), ChatBody(chat))]);
  }

  /** The loop of `createChat` over the e-mails: for each one that resolves
      to a user, a membership row and a notification, in input order. */
  method AddInvitees(chat: Chat, users: seq<User>, emails: seq<string>) returns (members: seq<Member>, sends: seq<Send>)
    ensures members == MembersOf(chat.id, Invitees(users, emails))
    ensures sends == Notices(chat, Invitees(users, emails))
  {
    var invited: seq<User> := [];
    var i := 0;
    while i < |emails|
      invariant 0 <= i <= |emails|
      invariant invited == Invitees(users, emails[..i])
    {
      InviteesStep(users, emails, i);
      var found := FindByEmail(users, emails[i]);
      if found.Some? {
        invited := invited + [found.value];
      }
      i := i + 1;
    }
    assert emails[..i] == emails;
    members := MembersOf(chat.id, invited);
    sends := Notices(chat, invited);
  }

  /** Helper: one more e-mail adds its user, if any, at the end. */
  lemma InviteesStep(users: seq<User>, emails: seq<string>, i: nat)
    requires i < |emails|
    ensures Invitees(users, emails[..i + 1]) ==
            Invitees(users, emails[..i]) + (match FindByEmail(users, emails[i]) case None => [] case Some(u) => [u])
  {
    assert emails[..i + 1][..i] == emails[..i];
  }

  /** E-mails nobody holds resolve to no one: a chat whose invitees are all
      unknown has the caller as its only member and notifies only them. */
  lemma {:induction false} UnknownEmailsSkipped(users: seq<User>, emails: seq<string>)
    requires forall k :: 0 <= k < |emails| ==> FindByEmail(users, emails[k]).None?
    ensures Invitees(users, emails) == []
    decreases |emails|
  {
    if |emails| > 0 {
      assert forall k :: 0 <= k < |emails| - 1 ==> emails[..|emails| - 1][k] == emails[k];
      UnknownEmailsSkipped(users, emails[..|emails| - 1]);
    }
  }

  /** Nothing stops a caller from listing their own e-mail: they are then a
      member twice and are notified twice. */
  lemma SelfInviteListedTwice(caller: User, db: Db)
    requires FindUser(db.users, caller.id) == Some(caller) && caller.email.Some?
    requires FindByEmail(db.users, caller.email.value) == Some(caller)
    ensures Invitees(db.users, [caller.email.value]) == [caller]
    ensures var chat := Chat(db.nextChatId, None, None);
            MembersOf(chat.id, [caller]) == [Member(chat.id, caller.id)]
            && Notices(chat, [caller]) + [ToTopic(UserChatsTopic(caller.id), ChatBody(chat))]
               == [ToTopic(UserChatsTopic(caller.id), ChatBody(chat)), ToTopic(UserChatsTopic(caller.id), ChatBody(chat))]
  {
    assert [caller.email.value][..0] == [];
  }

  // ------------------------------------------------------------- messages

  /** The body of a STOMP `SEND` to `/app/chat/{chatId}`. */
  datatype MessageRequest = MessageRequest(senderId: Option<string>, content: Option<string>)

  const SendFailedPrefix: string := "Failed to send message: "
  const ChatNotFoundText: string := "Chat not found"
  const SenderNotFoundText: string := "Sender not found"

  /** How the two sends of `sendMessage` went: both returned, the Kafka send
      threw, or the Kafka send returned and the broadcast threw. A throw
      lands in the method's catch block. */
  datatype Transport = Sent | KafkaThrew | BroadcastThrew

  /** The chat and the sender both resolve. */
  predicate Resolved(chatId: int, req: MessageRequest, db: Db) {
    FindChat(db.chats, chatId).Some? && req.senderId.Some? && FindUser(db.users, req.senderId.value).Some?
  }

  /** `sendMessage`. The chat is looked up first, then the sender; a missing
      one emits a single error text on the chat's error topic. A missing
      sender id fails inside the lookup, with the persistence layer's
      message. Otherwise the unsaved message (no id yet, stamped `now`) goes
      to Kafka for persistence and then to the chat's topic; a send that
      throws ends the sequence with an error text on the error topic. */
  function SendMessage(chatId: int, req: MessageRequest, db: Db, now: string, transport: Transport): (r: seq<Send>)
    ensures 1 <= |r| <= 2 && r[|r| - 1].ToTopic?
    ensures r[|r| - 1].destination == ChatTopic(chatId) <==> Resolved(chatId, req, db) && transport.Sent?
    ensures r[|r| - 1].destination != ChatTopic(chatId) ==> r[|r| - 1].destination == ChatErrorTopic(chatId)
    ensures r[0].ToKafka? <==> Resolved(chatId, req, db) && !transport.KafkaThrew?
    ensures |r| == 2 <==> r[0].ToKafka?
    ensures FindChat(db.chats, chatId).None? ==> r == [ToTopic(ChatErrorTopic(chatId), Text(SendFailedPrefix + ChatNotFoundText))]
    ensures FindChat(db.chats, chatId).Some? && req.senderId.Some? && FindUser(db.users, req.senderId.value).None? ==>
              r == [ToTopic(ChatErrorTopic(chatId), Text(SendFailedPrefix + SenderNotFoundText))]
    ensures Resolved(chatId, req, db) && !transport.Sent? ==>
              r[|r| - 1] == ToTopic(ChatErrorTopic(chatId), FailureText(SendFailedPrefix))
    ensures r[0].ToKafka? ==> r[0] == ToKafka(PersistTopic, MessageBody(Message(None, chatId, req.senderId.value, req.content, now)))
    ensures Resolved(chatId, req, db) && transport.Sent? ==> r[1] == ToTopic(ChatTopic(chatId), r[0].payload)
  {
    if FindChat(db.chats, chatId).None? then
      [ToTopic(ChatErrorTopic(chatId), Text(SendFailedPrefix + ChatNotFoundText))]
    else if req.senderId.None? then
      [ToTopic(ChatErrorTopic(chatId), FailureText(SendFailedPrefix))]
    else match FindUser(db.users, req.senderId.value)
      case None => [ToTopic(ChatErrorTopic(chatId), Text(SendFailedPrefix + SenderNotFoundText))]
      case Some(sender) =>
        var message := Message(None, chatId, sender.id, req.content, now);
        match transport
        case Sent => [ToKafka(PersistTopic, MessageBody(message)), ToTopic(ChatTopic(chatId), MessageBody(message))]
        case KafkaThrew => [ToTopic(ChatErrorTopic(chatId), FailureText(SendFailedPrefix))]
        case BroadcastThrew => [ToKafka(PersistTopic, MessageBody(message)), ToTopic(ChatErrorTopic(chatId), FailureText(SendFailedPrefix))]
  }

  /** Everything `sendMessage` emits on a STOMP destination concerns the
      addressed chat: its topic or its error topic. The chat's topic sees
      the message only after Kafka got it, and never together with an
      error. */
  lemma SendMessageStaysInChat(chatId: int, req: MessageRequest, db: Db, now: string, transport: Transport)
    ensures var r := SendMessage(chatId, req, db, now, transport);
            forall s :: s in r && s.ToTopic? ==> s.destination == ChatTopic(chatId) || s.destination == ChatErrorTopic(chatId)
    ensures var r := SendMessage(chatId, req, db, now, transport);
            (exists s :: s in r && s.ToTopic? && s.destination == ChatTopic(chatId)) ==>
              && r[0].ToKafka?
              && forall s :: s in r && s.ToTopic? ==> s.destination == ChatTopic(chatId)
  {
  }
}

=== FILE: dedup.dfy ===
/** The merge both views apply to an inbound frame: append the item unless an
    item with the same id is already in the list
    (`prev.some(m => m.id === x.id) ? prev : [...prev, x]`). Generic in the
    item type and in the id type; `id` projects the id the views compare
    with `===`. */
module Dedup {

  /** Some element of `xs` carries id `k`. */
  predicate HasId<T, K(==,!new)>(xs: seq<T>, id: T -> K, k: K) {
    exists i :: 0 <= i < |xs| && id(xs[i]) == k
  }

  /** No two elements of `xs` share an id. */
  predicate DistinctIds<T, K(==,!new)>(xs: seq<T>, id: T -> K) {
    forall i, j :: 0 <= i < j < |xs| ==> id(xs[i]) != id(xs[j])
  }

  /** The merge. The old list is kept as a prefix, the list grows by at most
      one, the ids present afterwards are the old ones plus `x`'s, the list is
      unchanged exactly when `x`'s id was already present, and distinct ids
      stay distinct. */
  function AppendNew<T, K(==,!new)>(xs: seq<T>, x: T, id: T -> K): (r: seq<T>)
    ensures xs <= r && |r| <= |xs| + 1
    ensures forall k :: HasId(r, id, k) <==> HasId(xs, id, k) || k == id(x)
    ensures r == xs <==> HasId(xs, id, id(x))
    ensures !HasId(xs, id, id(x)) ==> r[|xs|] == x
    ensures DistinctIds(xs, id) ==> DistinctIds(r, id)
  {
    if exists i :: 0 <= i < |xs| && id(xs[i]) == id(x) then xs
    else
      var r := xs + [x];
      assert HasId(r, id, id(x)) by { assert id(r[|xs|]) == id(x); }
      assert forall k :: HasId(r, id, k) ==> HasId(xs, id, k) || k == id(x) by {
        forall k | HasId(r, id, k) ensures HasId(xs, id, k) || k == id(x) {
          var i :| 0 <= i < |r| && id(r[i]) == k;
          if i < |xs| { assert id(xs[i]) == k; }
        }
      }
      r
  }

  /** An item whose id is not listed is not listed itself. */
  lemma AbsentIdAbsent<T, K(!new)>(xs: seq<T>, x: T, id: T -> K)
    requires !HasId(xs, id, id(x))
    ensures x !in xs
  {
  }

  /** Applying the merge to several frames in arrival order. */
  function AppendAll<T, K(==,!new)>(xs: seq<T>, ys: seq<T>, id: T -> K): seq<T>
    decreases |ys|
  {
    if |ys| == 0 then xs else AppendAll(AppendNew(xs, ys[0], id), ys[1..], id)
  }

  /** The merge is idempotent: the same frame twice has the effect of once. */
  lemma AppendNewIdempotent<T, K(!new)>(xs: seq<T>, x: T, id: T -> K)
    ensures AppendNew(AppendNew(xs, x, id), x, id) == AppendNew(xs, x, id)
  {
    assert HasId(AppendNew(xs, x, id), id, id(x));
  }

  /** Frames that all carry the same id — a redelivery on any number of
      subscriptions — have the effect of the first one alone. */
  lemma {:induction false} AppendAllRedelivered<T, K(!new)>(xs: seq<T>, ys: seq<T>, id: T -> K)
    requires |ys| >= 1
    requires forall i :: 0 <= i < |ys| ==> id(ys[i]) == id(ys[0])
    ensures AppendAll(xs, ys, id) == AppendNew(xs, ys[0], id)
    decreases |ys|
  {
    var r := AppendNew(xs, ys[0], id);
    if |ys| > 1 {
      AppendAllTail(r, ys[1..], id);
    }
  }

  /** Helper: once an id is present, further frames carrying it change
      nothing. */
  lemma {:induction false} AppendAllTail<T, K(!new)>(xs: seq<T>, ys: seq<T>, id: T -> K)
    requires |ys| >= 1
    requires forall i :: 0 <= i < |ys| ==> id(ys[i]) == id(ys[0])
    requires HasId(xs, id, id(ys[0]))
    ensures AppendAll(xs, ys, id) == xs
    decreases |ys|
  {
    assert AppendNew(xs, ys[0], id) == xs;
    if |ys| > 1 {
      AppendAllTail(xs, ys[1..], id);
    }
  }
}

=== FILE: delivery.dfy ===
/** Where the server's fan-out meets the conversation view: what one
    session receives of the frames `handleMessage` emits, and why the view's
    append-if-id-absent merge is needed.

    A session subscribed to a destination receives every broadcast on it;
    a delivery to a user on a queue reaches that user's sessions that
    subscribed to the queue under the user prefix. */
module Delivery {
  import opened Common
  import opened Destinations
  import opened Server
  import Broker
  import Controller
  import Dedup
  import ChatWindow

  /** The message one emitted frame brings to a session of `user` whose
      subscriptions are `subscribed`, if any. */
  function Received(s: Send, user: string, subscribed: set<string>): (r: Option<Message>)
    ensures r.Some? ==> s.payload == MessageBody(r.value) && !s.ToKafka?
    ensures r.Some? <==> s.payload.MessageBody? &&
                         (|| (s.ToTopic? && s.destination in subscribed)
                          || (s.ToUser? && s.user == user && UserPrefix + s.destination in subscribed))
  {
    match s
    case ToTopic(d, MessageBody(m)) => if d in subscribed then Some(m) else None
    case ToUser(u, d, MessageBody(m)) => if u == user && UserPrefix + d in subscribed then Some(m) else None
    case _ => None
  }

  /** The messages a session receives from a run of emitted frames, in
      emission order. */
  function Inbox(sends: seq<Send>, user: string, subscribed: set<string>): (r: seq<Message>)
    ensures |r| <= |sends|
    decreases |sends|
  {
    if |sends| == 0 then []
    else
      var last := sends[|sends| - 1];
      Inbox(sends[..|sends| - 1], user, subscribed)
        + (match Received(last, user, subscribed) case Some(m) => [m] case None => [])
  }

  /** `n` copies of `m`. */
  function Copies(m: Message, n: nat): (r: seq<Message>)
    ensures |r| == n && forall i :: 0 <= i < n ==> r[i] == m
  {
    seq(n, _ => m)
  }

  /** One more frame adds what it brings to the end of the inbox. */
  lemma InboxSnoc(sends: seq<Send>, s: Send, user: string, subscribed: set<string>)
    ensures Inbox(sends + [s], user, subscribed)
            == Inbox(sends, user, subscribed) + (match Received(s, user, subscribed) case Some(m) => [m] case None => [])
  {
    assert (sends + [s])[..|sends|] == sends;
  }

  /** A private-queue delivery reaches a session of its own user that
      subscribed to the chat's queue under the user prefix, and no other. */
  lemma ReceivedDelivery(m: Message, u: string, user: string, subscribed: set<string>)
    ensures Received(ToUser(u, ChatQueue(m.chatId), MessageBody(m)), user, subscribed)
            == if u == user && UserChatQueue(m.chatId) in subscribed then Some(m) else None
  {
  }

  /** Helper: one more copy at the end. */
  lemma CopiesSnoc(m: Message, k: nat)
    ensures Copies(m, k) + [m] == Copies(m, k + 1)
  {
  }

  /** Helper: the last private-queue delivery adds one copy exactly when it
      is for `user` and the session subscribed to the queue. */
  lemma InboxOfDeliveriesSnoc(m: Message, uids: seq<string>, user: string, subscribed: set<string>)
    requires |uids| > 0
    ensures Inbox(Broker.Deliveries(m, uids), user, subscribed)
            == Inbox(Broker.Deliveries(m, uids[..|uids| - 1]), user, subscribed)
               + (if uids[|uids| - 1] == user && UserChatQueue(m.chatId) in subscribed then [m] else [])
  {
    var front, u := uids[..|uids| - 1], uids[|uids| - 1];
    var last := ToUser(u, ChatQueue(m.chatId), MessageBody(m));
    assert Broker.Deliveries(m, uids) == Broker.Deliveries(m, front) + [last];
    InboxSnoc(Broker.Deliveries(m, front), last, user, subscribed);
    ReceivedDelivery(m, u, user, subscribed);
  }

  /** Helper: the multiplicity of `user` grows by one exactly when the last
      entry is `user`. */
  lemma MultiplicitySnoc(uids: seq<string>, user: string)
    requires |uids| > 0
    ensures multiset(uids)[user] == multiset(uids[..|uids| - 1])[user] + (if uids[|uids| - 1] == user then 1 else 0)
  {
    assert uids == uids[..|uids| - 1] + [uids[|uids| - 1]];
  }

  /** The private-queue deliveries of a message reach a session of `user`
      once per membership row of `user`, when the session subscribed to the
      chat's queue under the user prefix, and not at all otherwise. */
  lemma {:induction false} InboxOfDeliveries(m: Message, uids: seq<string>, user: string, subscribed: set<string>)
    ensures Inbox(Broker.Deliveries(m, uids), user, subscribed)
            == Copies(m, if UserChatQueue(m.chatId) in subscribed then multiset(uids)[user] else 0)
    decreases |uids|
  {
    if |uids| > 0 {
      var front := uids[..|uids| - 1];
      InboxOfDeliveriesSnoc(m, uids, user, subscribed);
      MultiplicitySnoc(uids, user);
      InboxOfDeliveries(m, front, user, subscribed);
      if uids[|uids| - 1] == user && UserChatQueue(m.chatId) in subscribed {
        CopiesSnoc(m, multiset(front)[user]);
      }
    }
  }

  /** The frames `handleMessage` emits after a successful save reach a
      session that subscribed to both the chat's topic and its user queue
      once per membership row of the session's user plus once on the topic:
      a member receives the same message, with the same id, twice. */
  lemma BrokerDeliversTwice(m: Message, uids: seq<string>, user: string, subscribed: set<string>)
    requires ChatTopic(m.chatId) in subscribed && UserChatQueue(m.chatId) in subscribed
    ensures var sends := Broker.Deliveries(m, uids) + [ToTopic(ChatTopic(m.chatId), MessageBody(m))];
            Inbox(sends, user, subscribed) == Copies(m, multiset(uids)[user] + 1)
  {
    InboxSnoc(Broker.Deliveries(m, uids), ToTopic(ChatTopic(m.chatId), MessageBody(m)), user, subscribed);
    InboxOfDeliveries(m, uids, user, subscribed);
    CopiesSnoc(m, multiset(uids)[user]);
  }

  /** A session that subscribed only to the chat's topic, as anyone may,
      receives the message once, whether or not its user is a member. */
  lemma TopicOnlySessionReceivesOnce(m: Message, uids: seq<string>, user: string)
    ensures var sends := Broker.Deliveries(m, uids) + [ToTopic(ChatTopic(m.chatId), MessageBody(m))];
            Inbox(sends, user, {ChatTopic(m.chatId)}) == [m]
  {
    var subscribed := {ChatTopic(m.chatId)};
    assert UserChatQueue(m.chatId) !in subscribed by {
      assert UserChatQueue(m.chatId)[1] == 'u' && ChatTopic(m.chatId)[1] == 't';
    }
    InboxOfDeliveries(m, uids, user, subscribed);
    assert Inbox(Broker.Deliveries(m, uids), user, subscribed) == [];
    InboxSnoc(Broker.Deliveries(m, uids), ToTopic(ChatTopic(m.chatId), MessageBody(m)), user, subscribed);
  }

  /** The message as the view parses the JSON of a saved message. */
  function ToView(m: Message): (r: ChatWindow.Message)
    requires m.id.Some?
    ensures r.id == m.id.value && r.chatId == m.chatId && r.senderId == m.senderId
  {
    ChatWindow.Message(m.id.value, m.chatId, m.senderId, m.content.GetOr(""), m.timestamp)
  }

  /** The view's messages after merging every received frame of a saved
      message, in order. */
  function Merged(messages: seq<ChatWindow.Message>, inbox: seq<Message>): (r: seq<ChatWindow.Message>)
    requires forall i :: 0 <= i < |inbox| ==> inbox[i].id.Some?
    ensures messages <= r
    decreases |inbox|
  {
    if |inbox| == 0 then messages
    else Merged(Dedup.AppendNew(messages, ToView(inbox[0]), ChatWindow.MessageId), inbox[1..])
  }

  /** However many times a saved message arrives, the view lists it as if
      it had arrived once: the double delivery is absorbed by the merge. */
  lemma {:induction false} CopiesMergeOnce(messages: seq<ChatWindow.Message>, m: Message, n: nat)
    requires m.id.Some? && n >= 1
    ensures Merged(messages, Copies(m, n)) == Dedup.AppendNew(messages, ToView(m), ChatWindow.MessageId)
    decreases n
  {
    var once := Dedup.AppendNew(messages, ToView(m), ChatWindow.MessageId);
    assert Copies(m, n)[1..] == Copies(m, n - 1);
    if n > 1 {
      MergePresent(once, m, n - 1);
    }
  }

  /** Helper: a message whose id the view already lists changes nothing,
      however often it arrives. */
  lemma {:induction false} MergePresent(messages: seq<ChatWindow.Message>, m: Message, n: nat)
    requires m.id.Some? && Dedup.HasId(messages, ChatWindow.MessageId, m.id.value)
    ensures Merged(messages, Copies(m, n)) == messages
    decreases n
  {
    if n > 0 {
      assert Dedup.AppendNew(messages, ToView(m), ChatWindow.MessageId) == messages;
      assert Copies(m, n)[1..] == Copies(m, n - 1);
      MergePresent(messages, m, n - 1);
    }
  }

  /** End to end: a member whose view subscribed to both the topic and its
      user queue receives the saved message at least twice and lists it
      once, exactly as a single delivery would. */
  lemma MemberListsSavedMessageOnce(messages: seq<ChatWindow.Message>, m: Message, uids: seq<string>,
                                    user: string, subscribed: set<string>)
    requires m.id.Some? && user in uids
    requires ChatTopic(m.chatId) in subscribed && UserChatQueue(m.chatId) in subscribed
    ensures var inbox := Inbox(Broker.Deliveries(m, uids) + [ToTopic(ChatTopic(m.chatId), MessageBody(m))], user, subscribed);
            |inbox| >= 2 && (forall i :: 0 <= i < |inbox| ==> inbox[i] == m)
            && Merged(messages, inbox) == Dedup.AppendNew(messages, ToView(m), ChatWindow.MessageId)
  {
    BrokerDeliversTwice(m, uids, user, subscribed);
    CopiesMergeOnce(messages, m, multiset(uids)[user] + 1);
  }

  /** The id the view compares, as the JSON of a server message carries it:
      `null` before the message is saved. */
  function WireId(m: Message): Option<int> {
    m.id
  }

  /** `sendMessage` broadcasts the message before it is saved, so its id is
      `null`; the view's merge compares ids with `===`, under which two
      `null`s are equal. Once one such broadcast is listed, every later one
      in the same view is taken for it and dropped, whatever its sender or
      content. */
  lemma UnsavedBroadcastsCollide(chatId: int, first: Controller.MessageRequest, second: Controller.MessageRequest,
                                 db: Db, now1: string, now2: string, listed: seq<Message>)
    requires Controller.Resolved(chatId, first, db) && Controller.Resolved(chatId, second, db)
    ensures var m1 := Controller.SendMessage(chatId, first, db, now1, Controller.Sent)[1].payload.message;
            var m2 := Controller.SendMessage(chatId, second, db, now2, Controller.Sent)[1].payload.message;
            var once := Dedup.AppendNew(listed, m1, WireId);
            m1.id.None? && m2.id.None? && Dedup.AppendNew(once, m2, WireId) == once
  {
    var m1 := Controller.SendMessage(chatId, first, db, now1, Controller.Sent)[1].payload.message;
    var m2 := Controller.SendMessage(chatId, second, db, now2, Controller.Sent)[1].payload.message;
    var once := Dedup.AppendNew(listed, m1, WireId);
    assert Dedup.HasId(once, WireId, WireId(m1));
    assert WireId(m2) == WireId(m1);
  }

  /** Saved messages, by contrast, carry the ids the database gave them:
      two messages saved under different ids are both listed, in arrival
      order. */
  lemma SavedMessagesBothListed(m1: Message, m2: Message, listed: seq<Message>)
    requires m1.id.Some? && m2.id.Some? && m1.id != m2.id
    requires !Dedup.HasId(listed, WireId, m1.id) && !Dedup.HasId(listed, WireId, m2.id)
    ensures Dedup.AppendNew(Dedup.AppendNew(listed, m1, WireId), m2, WireId) == listed + [m1, m2]
  {
    var once := Dedup.AppendNew(listed, m1, WireId);
    assert once == listed + [m1];
    assert !Dedup.HasId(once, WireId, WireId(m2));
  }
}

=== FILE: destinations.dfy ===
/** The STOMP destinations the client and the server agree on. Every
    destination string in the model is built here, once. */
module Destinations {
  import opened Common

  /** `/topic/chat/{chatId}`: the broadcast topic of one conversation. */
  function ChatTopic(chatId: int): string {
    "/topic/chat/" + IntToString(chatId)
  }

  /** `/topic/chat/{chatId}/error`: where server-side failures are reported. */
  function ChatErrorTopic(chatId: int): string {
    ChatTopic(chatId) + "/error"
  }

  /** `/queue/chat/{chatId}`: the per-user destination the server addresses. */
  function ChatQueue(chatId: int): string {
    "/queue/chat/" + IntToString(chatId)
  }

  /** The user-destination prefix configured on the broker. */
  const UserPrefix: string := "/user"

  /** `/user/queue/chat/{chatId}`: what a client subscribes to in order to
      receive the per-user queue of one conversation. */
  function UserChatQueue(chatId: int): string {
    UserPrefix + ChatQueue(chatId)
  }

  /** `/topic/user/{userId}/chats`: new-conversation notifications. */
  function UserChatsTopic(userId: string): string {
    "/topic/user/" + userId + "/chats"
  }

  /** `/app/chat/{chatId}`: the application destination a message is sent to. */
  function AppChat(chatId: int): string {
    "/app/chat/" + IntToString(chatId)
  }

  /** The Kafka topic messages are handed to for persistence. */
  const PersistTopic: string := "message_persist"
}

=== FILE: js_string.dfy ===
/** The two JavaScript string operations the views rely on:
    `String.prototype.trim` and `String.prototype.split` with a one-character
    separator. */
module JsString {

  /** ECMAScript WhiteSpace and LineTerminator code points: what `trim`
      removes. */
  predicate IsSpace(c: char) {
    var n := c as int;
    || n == 0x09 || n == 0x0A || n == 0x0B || n == 0x0C || n == 0x0D
    || n == 0x20 || n == 0xA0 || n == 0x1680 || (0x2000 <= n <= 0x200A)
    || n == 0x2028 || n == 0x2029 || n == 0x202F || n == 0x205F
    || n == 0x3000 || n == 0xFEFF
  }

  predicate AllSpace(s: string) {
    forall i :: 0 <= i < |s| ==> IsSpace(s[i])
  }

  /** `s` with its longest all-space prefix removed. */
  function TrimStart(s: string): (r: string)
    ensures |r| <= |s| && r == s[|s| - |r|..]
    ensures AllSpace(s[..|s| - |r|])
    ensures |r| == 0 || !IsSpace(r[0])
    decreases |s|
  {
    if |s| > 0 && IsSpace(s[0]) then
      var r := TrimStart(s[1..]);
      assert s[1..][..|s| - 1 - |r|] == s[1..|s| - |r|];
      r
    else s
  }

  /** `s` with its longest all-space suffix removed. */
  function TrimEnd(s: string): (r: string)
    ensures |r| <= |s| && r == s[..|r|]
    ensures AllSpace(s[|r|..])
    ensures |r| == 0 || !IsSpace(r[|r| - 1])
    decreases |s|
  {
    if |s| > 0 && IsSpace(s[|s| - 1]) then
      var r := TrimEnd(s[..|s| - 1]);
      assert s[..|s| - 1][|r|..] == s[|r|..|s| - 1];
      assert s[|r|..] == s[|r|..|s| - 1] + [s[|s| - 1]];
      r
    else s
  }

  /** `String.prototype.trim`: the result neither starts nor ends with a
      space, and it is empty exactly when `s` is all space. */
  function Trim(s: string): (r: string)
    ensures |r| <= |s|
    ensures |r| == 0 || (!IsSpace(r[0]) && !IsSpace(r[|r| - 1]))
    ensures r == [] <==> AllSpace(s)
  {
    var t := TrimStart(s);
    assert s == s[..|s| - |t|] + t;
    TrimEnd(t)
  }

  /** What `trim` keeps is a contiguous piece of `s`, and what it cuts off at
      either end is space. */
  lemma TrimIsInfix(s: string)
    ensures exists lead :: 0 <= lead <= |s| - |Trim(s)| && Trim(s) == s[lead..lead + |Trim(s)|]
                        && AllSpace(s[..lead]) && AllSpace(s[lead + |Trim(s)|..])
  {
    var t := TrimStart(s);
    var r := TrimEnd(t);
    var lead := |s| - |t|;
    assert Trim(s) == r;
    assert r == s[lead..lead + |r|] by {
      assert t == s[lead..] && r == t[..|r|];
    }
    assert AllSpace(s[lead + |r|..]) by {
      assert s[lead + |r|..] == t[|r|..];
    }
  }

  /** Number of occurrences of `c` in `s`. */
  function Count(s: string, c: char): nat {
    multiset(s)[c]
  }

  /** Position of the first `c` in `s`. */
  function IndexOf(s: string, c: char): (i: nat)
    requires c in s
    ensures i < |s| && s[i] == c && c !in s[..i]
  {
    if s[0] == c then 0
    else
      var i := IndexOf(s[1..], c);
      assert s[..i + 1] == [s[0]] + s[1..][..i];
      i + 1
  }

  /** Concatenation of the parts with `sep` between neighbours
      (`Array.prototype.join`). */
  function Join(parts: seq<string>, sep: char): string {
    if |parts| == 0 then ""
    else if |parts| == 1 then parts[0]
    else parts[0] + [sep] + Join(parts[1..], sep)
  }

  /** `String.prototype.split` with a one-character separator: the fields
      between separators, in order. There is always at least one field (the
      empty string splits into one empty field), no field contains the
      separator, there is one more field than separators, and joining the
      fields back with the separator gives `s`. */
  function Split(s: string, sep: char): (r: seq<string>)
    ensures |r| == Count(s, sep) + 1
    ensures forall k :: 0 <= k < |r| ==> sep !in r[k]
    ensures Join(r, sep) == s
    decreases |s|
  {
    if sep !in s then
      assert multiset(s)[sep] == 0;
      [s]
    else
      var i := IndexOf(s, sep);
      var rest := Split(s[i + 1..], sep);
      assert s == s[..i] + [sep] + s[i + 1..];
      assert multiset(s) == multiset(s[..i]) + multiset{sep} + multiset(s[i + 1..]) by {
        calc {
          multiset(s);
          multiset(s[..i] + [sep] + s[i + 1..]);
          multiset(s[..i] + [sep]) + multiset(s[i + 1..]);
        }
      }
      var r := [s[..i]] + rest;
      assert r[1..] == rest;
      r
  }

  /** The other half of the round trip: splitting the join of
      separator-free parts gives the parts back. */
  lemma {:induction false} SplitJoin(parts: seq<string>, sep: char)
    requires |parts| >= 1
    requires forall k :: 0 <= k < |parts| ==> sep !in parts[k]
    ensures Split(Join(parts, sep), sep) == parts
    decreases |parts|
  {
    if |parts| == 1 {
    } else {
      var tail := Join(parts[1..], sep);
      var s := parts[0] + [sep] + tail;
      assert s[|parts[0]|] == sep;
      assert s[..|parts[0]|] == parts[0];
      assert IndexOf(s, sep) == |parts[0]|;
      assert s[|parts[0]| + 1..] == tail;
      SplitJoin(parts[1..], sep);
    }
  }
}

=== FILE: rules.dfy ===
/** The message authorization tables of both server configurations
    (`MessageMatcherDelegatingAuthorizationManager`): an ordered list of
    (matcher, requirement) pairs where the first matching entry decides.

    Every destination pattern in the tables is a base path followed by the
    any-depth wildcard; the path matcher is approximated by "the destination
    is the base or starts with the base and a slash". */
module Rules {
  import opened Common
  import opened Destinations
  import opened Stomp

  /** `simpDestMatchers` of a base path matches any message with a
      destination under it; `simpSubscribeDestMatchers` only a subscription;
      `anyMessage()` every message. */
  datatype Matcher = DestUnder(base: string) | SubscribeUnder(base: string) | AnyMessage

  datatype Access = Authenticated | PermitAll

  datatype Rule = Rule(matcher: Matcher, access: Access)

  /** The approximation of the wildcard pattern on `base`. */
  predicate Under(base: string, destination: string) {
    || destination == base
    || (|base| < |destination| && destination[..|base|] == base && destination[|base|] == '/')
  }

  predicate Matches(m: Matcher, command: Option<Command>, destination: Option<string>) {
    match m
    case DestUnder(base) => destination.Some? && Under(base, destination.value)
    case SubscribeUnder(base) => command == Some(Subscribe) && destination.Some? && Under(base, destination.value)
    case AnyMessage => true
  }

  /** The requirement of the first matching rule; `None` when no rule
      matches. A table that ends with `anyMessage()` always decides. */
  function Decide(rules: seq<Rule>, command: Option<Command>, destination: Option<string>): (r: Option<Access>)
    ensures |rules| > 0 && rules[|rules| - 1].matcher == AnyMessage ==> r.Some?
  {
    if |rules| == 0 then None
    else if Matches(rules[0].matcher, command, destination) then Some(rules[0].access)
    else Decide(rules[1..], command, destination)
  }

  /** `Decide` is first-match-wins: it answers with the requirement of a
      matching rule that no earlier rule pre-empts, and with nothing exactly
      when no rule matches. */
  lemma {:induction false} DecideFirstMatch(rules: seq<Rule>, command: Option<Command>, destination: Option<string>)
    ensures Decide(rules, command, destination).None? <==> forall i :: 0 <= i < |rules| ==> !Matches(rules[i].matcher, command, destination)
    ensures Decide(rules, command, destination).Some? ==>
              exists i :: 0 <= i < |rules| && Matches(rules[i].matcher, command, destination)
                          && Decide(rules, command, destination).value == rules[i].access
                          && forall j :: 0 <= j < i ==> !Matches(rules[j].matcher, command, destination)
  {
    if |rules| > 0 && !Matches(rules[0].matcher, command, destination) {
      DecideFirstMatch(rules[1..], command, destination);
      var r := Decide(rules, command, destination);
      assert forall i :: 1 <= i < |rules| ==> rules[i] == rules[1..][i - 1];
      if r.Some? {
        var k :| 0 <= k < |rules[1..]| && Matches(rules[1..][k].matcher, command, destination)
                 && r.value == rules[1..][k].access
                 && forall j :: 0 <= j < k ==> !Matches(rules[1..][j].matcher, command, destination);
        assert Matches(rules[k + 1].matcher, command, destination);
      }
    } else if |rules| > 0 {
      assert Matches(rules[0].matcher, command, destination);
    }
  }

  /** One step of the scan. */
  lemma DecideStep(rules: seq<Rule>, command: Option<Command>, destination: Option<string>)
    requires |rules| > 0
    ensures Decide(rules, command, destination) ==
            if Matches(rules[0].matcher, command, destination) then Some(rules[0].access) else Decide(rules[1..], command, destination)
  {
  }

  /** The message goes through: the deciding rule permits everyone, or asks
      for an authenticated principal and there is one. No decision denies. */
  predicate Allowed(rules: seq<Rule>, command: Option<Command>, destination: Option<string>, authenticated: bool) {
    match Decide(rules, command, destination)
    case Some(PermitAll) => true
    case Some(Authenticated) => authenticated
    case None => false
  }

  /** The table of the main configuration, in declaration order. */
  const MainRules: seq<Rule> := [
    Rule(DestUnder("/app"), Authenticated),
    Rule(SubscribeUnder("/user/queue/chat"), Authenticated),
    Rule(SubscribeUnder("/user/queue"), Authenticated),
    Rule(SubscribeUnder("/topic/user"), Authenticated),
    Rule(SubscribeUnder("/user"), Authenticated),
    Rule(SubscribeUnder("/queue"), Authenticated),
    Rule(SubscribeUnder("/topic/chat"), PermitAll),
    Rule(AnyMessage, PermitAll)
  ]

  /** The table of the second configuration, in declaration order. */
  const SessionRules: seq<Rule> := [
    Rule(DestUnder("/app"), Authenticated),
    Rule(SubscribeUnder("/topic"), Authenticated),
    Rule(AnyMessage, PermitAll)
  ]

  /** The main table in words: authentication is needed for anything
      addressed under `/app`, and for subscriptions under `/user`, `/queue`
      or `/topic/user`; everything else is open. */
  predicate MainNeedsAuth(command: Option<Command>, destination: Option<string>) {
    destination.Some? &&
      (|| Under("/app", destination.value)
       || (command == Some(Subscribe) &&
           (Under("/user", destination.value) || Under("/queue", destination.value) || Under("/topic/user", destination.value))))
  }

  /** The second table in words: authentication is needed for anything
      addressed under `/app` and for every subscription under `/topic`. */
  predicate SessionNeedsAuth(command: Option<Command>, destination: Option<string>) {
    destination.Some? &&
      (Under("/app", destination.value) || (command == Some(Subscribe) && Under("/topic", destination.value)))
  }

  /** A destination under a deeper base is under the shallower one. */
  lemma UnderNested(base: string, rest: string, d: string)
    requires Under(base + rest, d) && |rest| > 0 && rest[0] == '/'
    ensures Under(base, d)
  {
    assert d[..|base + rest|][..|base|] == d[..|base|];
    assert (base + rest)[..|base|] == base;
    assert d[|base|] == (base + rest)[|base|];
  }

  /** The main table scanned entry by entry: the six entries that ask for
      authentication come before the two that permit everyone. */
  lemma MainDecideFlat(command: Option<Command>, destination: Option<string>)
    ensures Decide(MainRules, command, destination) ==
            Some(if || Matches(DestUnder("/app"), command, destination)
                    || Matches(SubscribeUnder("/user/queue/chat"), command, destination)
                    || Matches(SubscribeUnder("/user/queue"), command, destination)
                    || Matches(SubscribeUnder("/topic/user"), command, destination)
                    || Matches(SubscribeUnder("/user"), command, destination)
                    || Matches(SubscribeUnder("/queue"), command, destination)
                 then Authenticated else PermitAll)
  {
    var rs := MainRules;
    DecideStep(rs, command, destination);
    DecideStep(rs[1..], command, destination);
    DecideStep(rs[2..], command, destination);
    DecideStep(rs[3..], command, destination);
    DecideStep(rs[4..], command, destination);
    DecideStep(rs[5..], command, destination);
    DecideStep(rs[6..], command, destination);
    DecideStep(rs[7..], command, destination);
    assert rs[2..] == rs[1..][1..] && rs[3..] == rs[2..][1..] && rs[4..] == rs[3..][1..];
    assert rs[5..] == rs[4..][1..] && rs[6..] == rs[5..][1..] && rs[7..] == rs[6..][1..];
  }

  /** The main table decides exactly as its description says, and it
      always decides. */
  lemma MainTableMeaning(command: Option<Command>, destination: Option<string>)
    ensures Decide(MainRules, command, destination) == Some(if MainNeedsAuth(command, destination) then Authenticated else PermitAll)
  {
    MainDecideFlat(command, destination);
    if destination.Some? && command == Some(Subscribe) {
      UserQueueUnderUser(destination.value);
    }
  }

  /** The two `/user/queue` bases lie under `/user`. */
  lemma UserQueueUnderUser(d: string)
    ensures Under("/user/queue/chat", d) ==> Under("/user", d)
    ensures Under("/user/queue", d) ==> Under("/user", d)
  {
    if Under("/user/queue/chat", d) {
      UnderNested("/user", "/queue/chat", d);
    }
    if Under("/user/queue", d) {
      UnderNested("/user", "/queue", d);
    }
  }

  /** The second table decides exactly as its description says. */
  lemma SessionTableMeaning(command: Option<Command>, destination: Option<string>)
    ensures Decide(SessionRules, command, destination) == Some(if SessionNeedsAuth(command, destination) then Authenticated else PermitAll)
  {
    var rs := SessionRules;
    DecideStep(rs, command, destination);
    DecideStep(rs[1..], command, destination);
    DecideStep(rs[2..], command, destination);
    assert rs[2..] == rs[1..][1..];
  }

  /** The two `/user/queue` entries of the main table are shadowed by the
      later `/user` entry: dropping them decides every message the same way. */
  lemma UserQueueRulesRedundant(command: Option<Command>, destination: Option<string>)
    ensures Decide(MainRules[..1] + MainRules[3..], command, destination) == Decide(MainRules, command, destination)
  {
    MainTableMeaning(command, destination);
    var rs := MainRules[..1] + MainRules[3..];
    assert rs == [MainRules[0], MainRules[3], MainRules[4], MainRules[5], MainRules[6], MainRules[7]];
    DecideStep(rs, command, destination);
    DecideStep(rs[1..], command, destination);
    DecideStep(rs[2..], command, destination);
    DecideStep(rs[3..], command, destination);
    DecideStep(rs[4..], command, destination);
    DecideStep(rs[5..], command, destination);
    assert rs[2..] == rs[1..][1..] && rs[3..] == rs[2..][1..] && rs[4..] == rs[3..][1..] && rs[5..] == rs[4..][1..];
  }

  /** A destination that differs from `base` at a position both share is
      not under it. */
  lemma NotUnderAt(base: string, d: string, k: nat)
    requires k < |base| && k < |d| && base[k] != d[k]
    ensures !Under(base, d)
  {
    assert d != base;
    assert |base| < |d| ==> d[..|base|][k] == d[k];
  }

  /** A destination that starts with `base` followed by a slash is under
      `base`. */
  lemma UnderOfPrefix(base: string, p: string, rest: string)
    requires |base| < |p| && p[..|base|] == base && p[|base|] == '/'
    ensures Under(base, p + rest)
  {
    assert (p + rest)[..|base|] == p[..|base|];
  }

  /** Conversation topics: the main configuration lets anyone subscribe,
      the second only an authenticated session. */
  lemma ChatTopicAccess(chatId: int)
    ensures Allowed(MainRules, Some(Subscribe), Some(ChatTopic(chatId)), false)
    ensures !Allowed(SessionRules, Some(Subscribe), Some(ChatTopic(chatId)), false)
    ensures Allowed(SessionRules, Some(Subscribe), Some(ChatTopic(chatId)), true)
  {
    ChatTopicOpenInMain(chatId);
    ChatTopicClosedInSession(chatId);
    MainTableMeaning(Some(Subscribe), Some(ChatTopic(chatId)));
    SessionTableMeaning(Some(Subscribe), Some(ChatTopic(chatId)));
  }

  /** Helper: no authenticated base of the main table covers a
      conversation topic. */
  lemma ChatTopicOpenInMain(chatId: int)
    ensures !MainNeedsAuth(Some(Subscribe), Some(ChatTopic(chatId)))
  {
    var d := ChatTopic(chatId);
    assert d[1] == 't' && d[7] == 'c';
    NotUnderAt("/app", d, 1);
    NotUnderAt("/user", d, 1);
    NotUnderAt("/queue", d, 1);
    NotUnderAt("/topic/user", d, 7);
  }

  /** Helper: the second table's `/topic` base covers a conversation
      topic. */
  lemma ChatTopicClosedInSession(chatId: int)
    ensures SessionNeedsAuth(Some(Subscribe), Some(ChatTopic(chatId)))
  {
    UnderOfPrefix("/topic", "/topic/chat/", IntToString(chatId));
  }

  /** The chat-list topic of ANY user is open to every authenticated
      session, in both configurations: the tables check that there is a
      principal, not whose topic it is. */
  lemma UserChatsTopicNotOwnerChecked(userId: string)
    ensures Allowed(MainRules, Some(Subscribe), Some(UserChatsTopic(userId)), true)
    ensures Allowed(SessionRules, Some(Subscribe), Some(UserChatsTopic(userId)), true)
    ensures !Allowed(MainRules, Some(Subscribe), Some(UserChatsTopic(userId)), false)
  {
    var d := UserChatsTopic(userId);
    assert d == "/topic/user/" + (userId + "/chats");
    UnderOfPrefix("/topic/user", "/topic/user/", userId + "/chats");
    UnderOfPrefix("/topic", "/topic/user/", userId + "/chats");
    MainTableMeaning(Some(Subscribe), Some(d));
    SessionTableMeaning(Some(Subscribe), Some(d));
  }

  /** Sending to a conversation needs an authenticated principal in both
      configurations. */
  lemma AppChatNeedsAuth(chatId: int)
    ensures !Allowed(MainRules, Some(Send), Some(AppChat(chatId)), false)
    ensures !Allowed(SessionRules, Some(Send), Some(AppChat(chatId)), false)
    ensures Allowed(MainRules, Some(Send), Some(AppChat(chatId)), true)
  {
    var d := AppChat(chatId);
    UnderOfPrefix("/app", "/app/chat/", IntToString(chatId));
    MainTableMeaning(Some(Send), Some(d));
    SessionTableMeaning(Some(Send), Some(d));
  }
}

=== FILE: server.dfy ===
/** The server's data as the request handlers see it: the user, chat,
    membership and message tables, the responses, and the frames the
    handlers emit through the messaging template and Kafka.

    Each repository is a table in insertion order; a lookup is a scan. The
    `Message` entity is not part of this model's sources; its fields are the
    ones the handlers set. */
module Server {
  import opened Common

  /** A user row; `id` is the identity provider's subject. */
  datatype User = User(id: string, email: Option<string>, name: Option<string>)

  /** A chat row. */
  datatype Chat = Chat(id: int, chatType: Option<string>, name: Option<string>)

  /** A membership row. */
  datatype Member = Member(chatId: int, userId: string)

  /** A message; `id` is absent until it has been saved. */
  datatype Message = Message(id: Option<int>, chatId: int, senderId: string, content: Option<string>,
                             timestamp: string)

  /** The four tables. Messages are keyed by their id; `nextChatId` is the
      identity the chat table hands out next. */
  datatype Db = Db(users: seq<User>, chats: seq<Chat>, members: seq<Member>, messages: map<int, Message>,
                   nextChatId: int)

  /** A JSON body the server emits. `FailureText(prefix)` is a text made of
      `prefix` followed by an exception message from the persistence layer,
      whose wording is not modelled. */
  datatype Payload = ChatBody(chat: Chat) | MessageBody(message: Message) | Text(text: string)
                   | FailureText(prefix: string)

  /** An emitted frame: `convertAndSend` to a destination,
      `convertAndSendToUser` to one user's destination, or a Kafka record. */
  datatype Send =
    | ToTopic(destination: string, payload: Payload)
    | ToUser(user: string, destination: string, payload: Payload)
    | ToKafka(topic: string, payload: Payload)

  /** An HTTP response: 200 with a body, 400 with a fixed text, or 400 with a
      prefix followed by an exception message that is not modelled. */
  datatype Response<T> = Ok(body: T) | BadRequest(text: string) | Failed(prefix: string)

  /** The first row whose key is `k`, scanning the table in insertion
      order: found exactly when some row has that key, and no earlier row
      does. */
  function Find<T, K(==)>(rows: seq<T>, key: T -> K, k: K): (r: Option<T>)
    ensures r.Some? <==> exists i :: 0 <= i < |rows| && key(rows[i]) == k
    ensures r.Some? ==> r.value in rows && key(r.value) == k
    ensures r.Some? ==> exists i :: 0 <= i < |rows| && rows[i] == r.value
                                    && forall j :: 0 <= j < i ==> key(rows[j]) != k
  {
    if |rows| == 0 then None
    else if key(rows[0]) == k then Some(rows[0])
    else
      var r := Find(rows[1..], key, k);
      assert r.Some? ==> exists i :: 0 <= i < |rows| && rows[i] == r.value
                                    && forall j :: 0 <= j < i ==> key(rows[j]) != k by {
        if r.Some? {
          var i :| 0 <= i < |rows[1..]| && rows[1..][i] == r.value && forall j :: 0 <= j < i ==> key(rows[1..][j]) != k;
          assert rows[i + 1] == r.value;
          assert forall j :: 0 <= j < i + 1 ==> key(rows[j]) != k by {
            forall j | 0 <= j < i + 1 ensures key(rows[j]) != k {
              if j > 0 { assert rows[j] == rows[1..][j - 1]; }
            }
          }
        }
      }
      r
  }

  function UserKey(u: User): string { u.id }
  function EmailKey(u: User): Option<string> { u.email }
  function ChatKey(c: Chat): int { c.id }

  /** `userRepository.findById`. */
  function FindUser(users: seq<User>, id: string): (r: Option<User>)
    ensures r.Some? <==> exists i :: 0 <= i < |users| && users[i].id == id
    ensures r.Some? ==> r.value in users && r.value.id == id
  {
    Find(users, UserKey, id)
  }

  /** `userRepository.findByEmail`; e-mail addresses are unique in the table
      (a unique column), so at most one row matches. */
  function FindByEmail(users: seq<User>, email: string): (r: Option<User>)
    ensures r.Some? <==> exists i :: 0 <= i < |users| && users[i].email == Some(email)
    ensures r.Some? ==> r.value in users && r.value.email == Some(email)
  {
    Find(users, EmailKey, Some(email))
  }

  /** `chatRepository.findById`. */
  function FindChat(chats: seq<Chat>, id: int): (r: Option<Chat>)
    ensures r.Some? <==> exists i :: 0 <= i < |chats| && chats[i].id == id
    ensures r.Some? ==> r.value in chats && r.value.id == id
  {
    Find(chats, ChatKey, id)
  }

  /** No two user rows share an id. */
  predicate IdsUnique(users: seq<User>) {
    forall i, j :: 0 <= i < j < |users| ==> users[i].id != users[j].id
  }

  /** No two user rows share an e-mail address (the unique column). */
  predicate EmailsUnique(users: seq<User>) {
    forall i, j :: 0 <= i < j < |users| && users[i].email.Some? ==> users[i].email != users[j].email
  }

  /** Some user other than `id` already holds `email`. */
  predicate EmailTaken(users: seq<User>, id: string, email: Option<string>) {
    email.Some? && exists i :: 0 <= i < |users| && users[i].id != id && users[i].email == email
  }

  /** Position of the row with id `id`. */
  function UserIndex(users: seq<User>, id: string): (r: Option<nat>)
    ensures r.Some? ==> r.value < |users| && users[r.value].id == id
    ensures r.None? <==> forall i :: 0 <= i < |users| ==> users[i].id != id
  {
    if |users| == 0 then None
    else if users[0].id == id then Some(0)
    else match UserIndex(users[1..], id)
      case None => None
      case Some(i) => Some(i + 1)
  }

  /** `userRepository.save` of a user whose id is set, on a table keyed by
      id: the row with that id is replaced in place, or the user is appended;
      every other row stays where it was, and ids stay unique. */
  function SaveUser(users: seq<User>, u: User): (r: seq<User>)
    requires IdsUnique(users)
    ensures |r| == |users| || (|r| == |users| + 1 && r[|users|] == u)
    ensures |r| == |users| <==> exists i :: 0 <= i < |users| && users[i].id == u.id
    ensures forall i :: 0 <= i < |users| ==> r[i] == (if users[i].id == u.id then u else users[i])
    ensures IdsUnique(r)
  {
    match UserIndex(users, u.id)
    case Some(i) =>
      var r := users[i := u];
      assert forall k :: 0 <= k < |users| && k != i ==> users[k].id != u.id;
      r
    case None => users + [u]
  }

  /** In a table with unique ids, the lookup finds the one row with that
      id. */
  lemma {:induction false} FindUserUnique(users: seq<User>, i: nat)
    requires IdsUnique(users) && i < |users|
    ensures FindUser(users, users[i].id) == Some(users[i])
  {
    if i > 0 {
      assert users[1..][i - 1] == users[i];
      FindUserUnique(users[1..], i - 1);
    }
  }

  /** The user ids of the membership rows of chat `chatId`
      (`chatMemberRepository.findByChatId`), in table order. */
  function MemberIds(members: seq<Member>, chatId: int): (r: seq<string>)
    ensures |r| <= |members|
    ensures forall u :: u in r <==> Member(chatId, u) in members
  {
    if |members| == 0 then []
    else
      var rest := MemberIds(members[1..], chatId);
      assert forall m :: m in members <==> m == members[0] || m in members[1..];
      if members[0].chatId == chatId then [members[0].userId] + rest else rest
  }
}

=== FILE: session_gate.dfy ===
/** The inbound-channel interceptor of the second server configuration
    (`Backend/chatapp`). It authenticates `CONNECT` like the main one, but
    grants `ROLE_USER`, remembers the authentication in the WebSocket
    session's attributes, and never drops any other frame: for those it only
    installs the remembered JWT authentication in the thread's security
    context.

    The interceptor works on a copy of the headers (`StompHeaderAccessor.wrap`),
    so what it sets on that copy reaches the channel only on the `CONNECT`
    path, where it rebuilds the message from the copy. */
module SessionGate {
  import opened Common
  import opened Stomp
  import Bearer

  /** The session attributes: absent, or a map from attribute name to the
      authentication stored under it. */
  type Attributes = Option<map<string, Principal>>

  /** What `preSend` does: the message passed on (`None` drops it), the
      `X-Auth-Error` text put on the copy of a dropped `CONNECT`, the session
      attributes afterwards, and the authentication installed in the thread's
      security context, if any. */
  datatype Gate = Gate(forwarded: Option<Frame>, authError: Option<string>, attributes: Attributes,
                       context: Option<Principal>)

  const AuthAttribute: string := "SPRING.AUTHENTICATION"
  const UserRole: string := "ROLE_USER"
  const NoHeaderText: string := "No valid Authorization header"

  /** The JWT authentication stored in the session, if there is one. */
  function Remembered(attributes: Attributes): (r: Option<Principal>)
    ensures r.Some? <==> attributes.Some? && AuthAttribute in attributes.value && attributes.value[AuthAttribute].JwtAuth?
    ensures r.Some? ==> r.value.JwtAuth? && r.value == attributes.value[AuthAttribute]
  {
    if attributes.Some? && AuthAttribute in attributes.value && attributes.value[AuthAttribute].JwtAuth? then
      Some(attributes.value[AuthAttribute])
    else None
  }

  /** `preSend`. A `CONNECT` without a `Bearer ` header is dropped with
      `X-Auth-Error: No valid Authorization header`; one whose token does
      not decode is dropped with the decoder's message. A decoded token
      becomes the principal with the single authority `ROLE_USER`; it is
      stored under `SPRING.AUTHENTICATION` when the session has attributes
      and the rebuilt message carries it. Any other message passes unchanged,
      with the remembered JWT authentication, if any, installed in the
      context. */
  function PreSend(f: Frame, attributes: Attributes, decode: string -> Decoded): (r: Gate)
    ensures f.command == Some(Connect) ==>
              && (r.forwarded.Some? <==> Bearer.Strip(f.authorization).Some? && decode(Bearer.Strip(f.authorization).value).Decoded?)
              && (Bearer.Strip(f.authorization).None? ==> r == Gate(None, Some(NoHeaderText), attributes, None))
              && (r.forwarded.None? && Bearer.Strip(f.authorization).Some? ==>
                    r == Gate(None, Some(decode(Bearer.Strip(f.authorization).value).message), attributes, None))
              && (r.forwarded.Some? ==>
                    var auth := JwtAuth(decode(Bearer.Strip(f.authorization).value).jwt, [UserRole]);
                    && r.forwarded == Some(f.(user := Some(auth))) && r.context == Some(auth) && r.authError.None?
                    && (r.attributes.Some? <==> attributes.Some?)
                    && (attributes.Some? ==> r.attributes.value == attributes.value[AuthAttribute := auth]))
    ensures f.command != Some(Connect) ==>
              r == Gate(Some(f), None, attributes, Remembered(attributes))
  {
    if f.command == Some(Connect) then
      match Bearer.Strip(f.authorization)
      case None => Gate(None, Some(NoHeaderText), attributes, None)
      case Some(token) =>
        match decode(token)
        case DecodeError(message) => Gate(None, Some(message), attributes, None)
        case Decoded(jwt) =>
          var auth := JwtAuth(jwt, [UserRole]);
          var stored := if attributes.Some? then Some(attributes.value[AuthAttribute := auth]) else None;
          Gate(Some(f.(user := Some(auth))), None, stored, Some(auth))
    else
      Gate(Some(f), None, attributes, Remembered(attributes))
  }

  /** Only `CONNECT` can be dropped here. */
  lemma OnlyConnectDropped(f: Frame, attributes: Attributes, decode: string -> Decoded)
    requires PreSend(f, attributes, decode).forwarded.None?
    ensures f.command == Some(Connect)
  {
  }

  /** A session that connected remembers the authentication: a later frame
      of any other command gets it installed in the context. */
  lemma ConnectThenRestore(f: Frame, g: Frame, attributes: map<string, Principal>, decode: string -> Decoded)
    requires f.command == Some(Connect) && g.command != Some(Connect)
    requires PreSend(f, Some(attributes), decode).forwarded.Some?
    ensures var connected := PreSend(f, Some(attributes), decode);
            PreSend(g, connected.attributes, decode).context == connected.context
            && PreSend(g, connected.attributes, decode).forwarded == Some(g)
  {
  }

  /** Without session attributes nothing is remembered: later frames pass,
      with no authentication installed. */
  lemma NoAttributesNoRestore(f: Frame, g: Frame, decode: string -> Decoded)
    requires f.command == Some(Connect) && g.command != Some(Connect)
    ensures var connected := PreSend(f, None, decode);
            PreSend(g, connected.attributes, decode) == Gate(Some(g), None, None, None)
  {
  }
}

=== FILE: stomp.dfy ===
/** What the server's inbound-channel interceptors see of a client frame:
    the STOMP 1.2 command, the first `Authorization` header, the
    destination and the session's principal; and the token decoder they call,
    as a parameter that either yields a token or fails with a message. */
module Stomp {
  import opened Common

  /** The client frames of STOMP 1.2 (section 5 of the STOMP 1.2
      specification). `StompConnect` is the `STOMP` frame, which the
      protocol allows in place of `CONNECT`. */
  datatype Command =
    | Connect | StompConnect | Send | Subscribe | Unsubscribe
    | Begin | Commit | Abort | Ack | Nack | Disconnect

  /** The claims the server reads from a decoded token. */
  datatype Jwt = Jwt(subject: Option<string>, audience: Option<seq<string>>)

  /** The result of `jwtDecoder.decode`. */
  datatype Decoded = Decoded(jwt: Jwt) | DecodeError(message: string)

  /** An authentication object: a JWT authentication with its authorities,
      or any other kind. */
  datatype Principal = JwtAuth(jwt: Jwt, authorities: seq<string>) | OtherAuth(name: string)

  /** An inbound message. `command` is absent when the message carries no
      STOMP command. */
  datatype Frame = Frame(command: Option<Command>, authorization: Option<string>,
                         destination: Option<string>, user: Option<Principal>)

  /** The session's principal is a JWT authentication. */
  predicate HasJwtUser(f: Frame) {
    f.user.Some? && f.user.value.JwtAuth?
  }
}

=== FILE: stomp_client.dfy ===
/** The part of the stompjs client library both views depend on: the
    handle `client.subscribe` returns. */
module StompClient {
  import opened Common

  /** A subscription handle; `live` is false once it was unsubscribed or its
      connection went away. */
  datatype Subscription = Subscription(destination: string, live: bool)

  /** `subscription.unsubscribe()` on a handle that may be absent: a present
      handle keeps its destination and stops delivering. */
  function Unsubscribe(s: Option<Subscription>): (r: Option<Subscription>)
    ensures r.Some? <==> s.Some?
    ensures r.Some? ==> r.value.destination == s.value.destination && !r.value.live
  {
    match s
    case Some(x) => Some(x.(live := false))
    case None => None
  }
}

=== FILE: stomp_gate.dfy ===
/** The inbound-channel interceptor of the main server configuration
    (`Backend/src`): `CONNECT` must carry a decodable bearer token, which
    becomes the session's principal; `SUBSCRIBE` and `SEND` are dropped
    unless the session has a JWT principal; everything else passes. */
module StompGate {
  import opened Common
  import opened Stomp
  import Bearer

  /** What `preSend` does with a message: the message passed on (`None`
      when it returns `null`, which drops the frame), and the authentication
      it installs in the thread's security context, if any. */
  datatype Gate = Gate(forwarded: Option<Frame>, context: Option<Principal>)

  /** `preSend`. `accessor` is false when the message has no STOMP header
      accessor. */
  function PreSend(f: Frame, accessor: bool, decode: string -> Decoded): (r: Gate)
    ensures !accessor ==> r == Gate(Some(f), None)
    ensures accessor && f.command == Some(Connect) ==>
              && (r.forwarded.Some? <==> Bearer.Strip(f.authorization).Some? && decode(Bearer.Strip(f.authorization).value).Decoded?)
              && (r.forwarded.Some? ==>
                    var auth := JwtAuth(decode(Bearer.Strip(f.authorization).value).jwt, []);
                    r.forwarded == Some(f.(user := Some(auth))) && r.context == Some(auth))
              && (r.forwarded.None? ==> r.context.None?)
    ensures accessor && (f.command == Some(Subscribe) || f.command == Some(Send)) ==>
              && (r.forwarded.Some? <==> HasJwtUser(f))
              && (r.forwarded.Some? ==> r.forwarded == Some(f) && r.context == f.user)
    ensures f.command.None? || f.command.value !in {Connect, Subscribe, Send} ==> r == Gate(Some(f), None)
  {
    if !accessor then Gate(Some(f), None)
    else match f.command
      case Some(Connect) => Authenticate(f, decode)
      case Some(Subscribe) => Restore(f)
      case Some(Send) => Restore(f)
      case _ => Gate(Some(f), None)
  }

  /** The `CONNECT` branch: a header that starts exactly with `Bearer `
      and a token that decodes give the session a JWT principal with no
      authorities; anything else drops the frame. */
  function Authenticate(f: Frame, decode: string -> Decoded): (r: Gate)
    ensures r.forwarded.Some? <==> Bearer.Strip(f.authorization).Some? && decode(Bearer.Strip(f.authorization).value).Decoded?
    ensures r.forwarded.None? ==> r.context.None?
  {
    match Bearer.Strip(f.authorization)
    case None => Gate(None, None)
    case Some(token) =>
      match decode(token)
      case DecodeError(_) => Gate(None, None)
      case Decoded(jwt) =>
        var auth := JwtAuth(jwt, []);
        Gate(Some(f.(user := Some(auth))), Some(auth))
  }

  /** The `SUBSCRIBE`/`SEND` branch: pass with the session's principal
      installed, or drop. */
  function Restore(f: Frame): (r: Gate)
    ensures r.forwarded.Some? <==> HasJwtUser(f)
    ensures r.forwarded.Some? ==> r.forwarded == Some(f) && r.context == f.user
    ensures r.forwarded.None? ==> r.context.None?
  {
    if HasJwtUser(f) then Gate(Some(f), f.user) else Gate(None, None)
  }

  /** The client's connect header carries the token to the decoder
      verbatim; when it decodes, the session's principal is that token's
      subject with no authorities. */
  lemma ConnectWithClientHeader(f: Frame, token: string, decode: string -> Decoded)
    requires f.command == Some(Connect) && f.authorization == Some(Bearer.Header(token))
    requires decode(token).Decoded?
    ensures var r := PreSend(f, true, decode);
            r.forwarded.Some? && r.forwarded.value.user == Some(JwtAuth(decode(token).jwt, []))
            && r.forwarded.value.user.value.jwt.subject == decode(token).jwt.subject
  {
    Bearer.StripHeader(token);
  }

  /** A `CONNECT` with a lower-case scheme is dropped, whatever the
      token. */
  lemma LowerCaseSchemeDropped(f: Frame, token: string, decode: string -> Decoded)
    requires f.command == Some(Connect) && f.authorization == Some("bearer " + token)
    ensures PreSend(f, true, decode).forwarded.None?
  {
    Bearer.LowerCaseSchemeRejected(token);
  }

  /** The `STOMP` frame, which STOMP 1.2 accepts in place of `CONNECT`, is
      not the `CONNECT` command and passes without any header check. */
  lemma StompFrameUnchecked(f: Frame, decode: string -> Decoded)
    requires f.command == Some(StompConnect)
    ensures PreSend(f, true, decode) == Gate(Some(f), None)
  {
  }

  /** A session that connected through this interceptor may subscribe and
      send: the principal the `CONNECT` installed lets them through. */
  lemma ConnectedSessionMaySend(f: Frame, g: Frame, decode: string -> Decoded)
    requires f.command == Some(Connect) && PreSend(f, true, decode).forwarded.Some?
    requires g.command == Some(Send) || g.command == Some(Subscribe)
    requires g.user == PreSend(f, true, decode).forwarded.value.user
    ensures PreSend(g, true, decode) == Gate(Some(g), g.user)
  {
  }
}
